=== FILE: README.md ===
# Tournament registration core, modelled in Dafny

A model of the decision logic of a Django application that runs martial-arts
tournaments (two generations of the same app, `main` and `main1`, plus the
`accounts` and `client` apps and a CSV export script). Everything is pure
functions over immutable values: profiles, forms and stores are datatypes,
database tables are sequences or maps, and "today" is a parameter.

Modules, one per file:

- `Wrappers`: `Option` and `Result`, standing for `None`, missing keys and raised exceptions.
- `Text`: the parts of Python's `str` used by the code: `split(' ')`, `join`, `replace`, `lower` (ASCII), `str(n)` and `'%02d'`. It also holds round-trip lemmas for them.
- `Dates`: `datetime.date`, the age rule shared by `BaseProfile.age`, `Athlete.age` and `calculate_age`, and `strftime('%d-%m-%Y')`.
- `Models`: the tournament ordinal suffix, the photo folder of `User.get_upload_path`, and the category choices.
- `WeightDivision`: the first-match weight-division classifier, with weights in hundredths of a kilogram. It is proved equal to an independent ordered band table.
- `Export`: the CSV export script. It covers the per-(gender, division) selection, the file names, and which files with which rows get written.
- `Dicts`: Python dictionaries as insertion-ordered key/value sequences, with `get`, `update`, assignment and the renaming comprehension.
- `ConsentForm`: the data `generate_pdf` assembles. It covers the name split, empty-text defaults, dates, weight rendering, the check boxes, the `FIELD_MAPPING` renaming and the missing-field guard.
- `FormFill`: the field rules of the PDF and Word fill tasks.
- `Accounts`: `link_user_to_coach`, and the registration form's `clean` and `save`.
- `Registration`: the athlete-selection forms and the two `register_athletes` views, which insert a row only when it is absent.
- `Forms`: `CoachForm.clean`, the team/individual category filters, the role-dependent widgets, and the upsert in `AthleteCoachForm.save`.
- `Roster`: the athlete list of `AthleteListView.get_queryset`.

Where the code and its documentation disagree, the model follows the code:

- A date of birth after today gives a negative age, not an error.
- A missing weight raises `TypeError` as soon as a bracket compares it. It does not give 'Unknown Category'.
- Names are split on single spaces, not on runs of whitespace.
- An empty name gives empty name fields, not an error.

## Model

| member | source | states |
|---|---|---|
| Dates.Age | main1/models.py:152-156 | the age is the unique number of completed years: its anniversary has been reached by today and the next one has not (`Athlete.age` at main/models.py:202-206 and `calculate_age` at script.py:23-25 are the same expression and share this definition) |
| Dates.AgeUnique | main1/models.py:153-156 | any number with the anniversary property equals the computed age |
| Dates.AgeOnBirthday | main1/models.py:155 | on the birthday the age is exactly the difference of the years |
| Dates.AgeDayBeforeBirthday | main1/models.py:155 | on the day before a birthday the age is one less than on the birthday |
| Dates.DayBefore | main1/models.py:155 | yields a valid date strictly before its argument |
| Dates.DayBeforeImmediate | main1/models.py:155 | no valid date lies strictly between a date and the day before it |
| Dates.AgeNonNegative | main1/models.py:153-156 | a date of birth not after today gives an age of at least 0 |
| Dates.AgeMonotone | main1/models.py:153-156 | the age never decreases as today advances |
| Dates.FormatDMY | main1/views.py:528 | the rendering has dashes at positions 2 and 5, and is ten characters long for every year from 1000 |
| Dates.ParseFormatDMY | main1/views.py:528 | a DD-MM-YYYY rendering reads back as the same date, so it loses nothing |
| Models.OrdinalSuffix | main1/models.py:95-101 | 'st', 'nd' and 'rd' exactly when the last digit is 1, 2 or 3 outside 11 to 13 modulo 100, and 'th' otherwise |
| Models.OrdinalSuffixPeriodic | main1/models.py:96-101 | the suffix depends only on the number modulo 100 |
| Models.UploadPath | main/models.py:44-54 | athlete, coach, staff and media each get a folder of their own, every other type (admin included) gets 'default_photos/', and every result is one of five strings ending in '/' |
| Models.ChoiceValues | main1/models.py:52-59 | the stored values are exactly the first components of the six category choices |
| Text.Lower | main1/models.py:163 | lower-casing keeps the length and acts on each character on its own, with no regard to its neighbours |
| Text.LowerSpec | main1/models.py:163 | the result has no upper-case ASCII letter, every other character is unchanged, and lower-casing again changes nothing |
| Text.JoinSplit | accounts/models.py:14-15 | joining the pieces of a split with the same separator gives back the original string |
| Text.SplitCharPiecesFree | accounts/models.py:14 | no piece of a split on a character contains that character |
| Text.SplitAbsentChar | main1/views.py:525-526 | splitting a string without the separator gives the whole string as the only piece |
| Text.SplitPresentChar | main1/views.py:525-526 | splitting a string that contains the separator gives at least two pieces |
| Text.JoinSnoc | main1/views.py:526 | joining one more piece appends the separator and that piece |
| Text.ReplaceIsJoinOfSplit | main1/utils.py:61 | replacing a non-empty pattern equals joining the split pieces with the replacement |
| Text.ReplaceAbsent | main1/utils.py:60-61 | replacing a pattern that does not occur changes nothing |
| Text.ReplaceChar | script.py:42 | replacing one character by another acts position by position and keeps the length |
| Text.NatToString | main1/views.py:530 | the decimal rendering is all digits, and a single digit exactly below 10 |
| Text.ParseNatToString | main1/views.py:528 | a number's decimal rendering reads back as the number |
| Text.ParsePad2 | main1/views.py:528 | a zero-padded day or month reads back as the number |
| WeightDivision.Classify | main1/models.py:161-208 | the result is always one of the twelve division labels, with the bounds the float comparisons give: 54.90 kg and 59.90 kg are in no band (the `main` app's copy at main/models.py:207-254 is the same text and shares this definition) |
| WeightDivision.ClassifyMatchesTable | main1/models.py:161-208 | the nested conditionals equal a first-match lookup in explicit band tables chosen by gender and age bracket |
| WeightDivision.FirstMatchFromBand | main1/models.py:165-184 | in a table of separated bands the order of the rules does not matter: a weight inside a band gets that band's label |
| WeightDivision.FirstMatchFromNoBand | main1/models.py:208 | a weight that lies in no band falls through to 'Unknown Category' |
| WeightDivision.TablesSortedApart | main1/models.py:165-207 | both band tables are increasing, and each band ends below the start of the next |
| WeightDivision.WeightCategory | main1/models.py:162-208 | a missing weight raises exactly when the profile is in a bracket that compares the weight; otherwise it gives 'Unknown Category'; every success is a division label |
| WeightDivision.UnknownGender | main1/models.py:163-208 | a gender that lowercases to neither 'male' nor 'female' gets 'Unknown Category' and its weight is never compared |
| WeightDivision.AgeOutOfBand | main1/models.py:164-208 | under 18 or over 49 nobody is classified, whatever the weight, and a missing weight raises nothing |
| WeightDivision.YoungMaleDivisions | main1/models.py:164-184 | for men of 18 to 35: up to 54.89 kg is Fin, 55 to 59.89 kg is Fly, 54.90 to 54.99 kg and 59.90 to 59.99 kg are unclassified, exactly 100 kg is Super Heavy, above 100 kg is Level 1, and from 60 kg to below 90 kg a weight is unclassified strictly inside a 0.1 kg gap and otherwise gets the band of its 5 kg step |
| WeightDivision.DefaultWeightIsFin | main/models.py:211-212 | the default weight 0 is Fin for a man of 18 to 35 |
| WeightDivision.FiveBandShared | main/models.py:231-253 | men of 36 to 49 and women of 18 to 49 are classified alike: nothing below 50.9 kg, Fly from 50.9 to 59.89 kg, nothing from 59.90 to 59.99 kg, Middle from 60 to 69.9 kg, Level 0 from 90 kg |
| WeightDivision.TopDivisions | main1/models.py:183-207 | Level 1 is reached exactly by men of 18 to 35 above 100 kg, and Level 0 exactly by the two five-band brackets from 90 kg |
| WeightDivision.FloatThresholds | main1/models.py:165-201 | for every two-place decimal weight, each comparison with the double nearest to 50.9, 54.9, ..., 89.9 holds exactly when the weight is within the integer bound in hundredths: 5090, 5489, 5989, then 6490 to 8990 |
| WeightDivision.ClassifyMatchesFloat | main1/models.py:161-208 | for every weight in hundredths, the integer classifier equals the source's conditionals evaluated with the exact double values of its literals |
| Export.CategoriesCoverLabels | script.py:14-20 | the twelve export categories are pairwise distinct and are exactly the classifier's labels |
| Export.Select | script.py:35-38 | the selection fails exactly when some adult's division needs a missing weight; otherwise it holds exactly the athletes that are adults with that division |
| Export.SelectSingle | script.py:35-38 | a single athlete is either the cause of a raise, kept because they are an adult of the category, or dropped |
| Export.SelectAppend | script.py:35-38 | selecting from a concatenation fails when either part fails, and otherwise concatenates the two selections, so the selection keeps the query's order |
| Export.ExactlyOnePass | script.py:29-38 | an adult whose division is defined is selected in exactly one of the twelve passes of their gender |
| Export.Slug | script.py:42 | the category slug keeps the length, with each space made an underscore and each letter lower-cased |
| Export.Filename | script.py:42 | a file name contains no space when the gender has none |
| Export.FilenamesDistinct | script.py:29-42 | two different (gender, category) passes never produce the same file name |
| Export.ExportPass | script.py:35-58 | a pass writes a file exactly when some athlete is selected; the file carries the pass's name and at least one row, every row's category is the pass's category, its rows are exactly the rows of the selected athletes, and they come in the order of the selection |
| Export.ExportGender | script.py:30-58 | the files of one gender's passes each belong to one of its categories and have distinct names; the gender raises exactly when one of its adults needs a missing weight, and then in its first pass, before any of its files is written; a run that does not raise has run every remaining pass without a raise and holds the file of each pass that selected someone, and every file it holds is the file one of its passes writes |
| Export.WritesPassesExtend | script.py:30-45 | a pass that does not raise keeps the files of all later passes and adds its own, so every pass from it on is written |
| Export.OnlyPassesExtend | script.py:30-45 | a pass adds no file but its own to the later passes' files |
| Export.GendersApart | script.py:29-42 | a man's file and a woman's file never share a name, so both genders together write distinct files |
| Export.GenerateCsv | script.py:28-58 | no two written files share a name; the run raises exactly when some adult of either gender needs a missing weight; a raise among the men writes nothing, and the men's files always stay written, also when the women's passes raise; without a raise among the men the files are the men's files followed by the women's, and the run ends as the women's does; a run without a raise holds the file of every pass of both genders that selected someone, and every file is the file of one pass |
| Dicts.Get | main1/utils.py:27 | a lookup fails exactly when the key is absent, and otherwise returns a value stored under the key |
| Dicts.Put | main1/views.py:545 | after assigning a key the key holds the new value and every other key is unchanged; a fresh key is appended at the end |
| Dicts.UpdateZip | main1/views.py:545 | updating with entries under fresh keys appends them in order |
| Dicts.RenameUnmapped | main1/views.py:558 | renaming through a mapping that covers none of the keys gives back the same dictionary |
| Dicts.GetZip | main1/views.py:524-545 | with distinct keys, each key of a built dictionary holds the value at its position |
| ConsentForm.FamilyName | main1/views.py:525 | the family name never contains a space |
| ConsentForm.NameParts | main1/views.py:525-526 | with a space in the name, the given names, a space and the family name rebuild it; without one, the family name is the whole name and the given names are empty |
| ConsentForm.DecimalString | main1/views.py:530 | the weight renders with a point followed by two digits |
| ConsentForm.ParseDecimalString | main1/views.py:530 | the rendered weight reads back as the weight in hundredths, negative weights included |
| ConsentForm.CategoryChecks | main1/views.py:510-521 | there are exactly three check-box values |
| ConsentForm.DataKeysDistinct | main1/views.py:524-545 | the nineteen data keys are pairwise distinct |
| ConsentForm.AthleteDataKeys | main1/views.py:524-545 | the data has exactly the keys Text1 to Text16, 'check1', 'Check2' and 'Check3', each once and in insertion order |
| ConsentForm.UpdateBuildsData | main1/views.py:543-545 | updating the sixteen base entries with the check-box dictionary gives the nineteen-entry data, with the check boxes last |
| ConsentForm.DataKeysUnmapped | main1/views.py:487-507 | no data key is a key of `FIELD_MAPPING` |
| ConsentForm.RenameIsIdentity | main1/views.py:558 | the `FIELD_MAPPING.get(k, k)` renaming leaves the data unchanged |
| ConsentForm.GeneratePdf | main1/views.py:547-559 | the 400 response is returned exactly when some data key is not a template field; otherwise the fill receives the data unchanged |
| ConsentForm.NameFields | main1/views.py:525-538 | Text1 and Text2 hold the family and given names, which rebuild a name that contains a space; without a space Text1 is the name and Text2 is empty; Text13 is the full name |
| ConsentForm.CheckFields | main1/views.py:510-521 | each check box reads 'Yes' exactly when its own category is held, and 'No' otherwise |
| ConsentForm.DateFields | main1/views.py:528-540 | Text16 and Text15 are renderings that read back as the date of birth and today |
| ConsentForm.WeightAgeFields | main1/views.py:529-530 | a missing or zero weight, and a zero age, render as the empty text; any other weight renders as a decimal that reads back as the weight; any other age is kept as a number |
| ConsentForm.EmailFields | main1/views.py:532-533 | Text7 and Text8 both hold the e-mail, or the empty text when it is missing |
| ConsentForm.ContactFields | main1/views.py:534-539 | missing contacts or belt render as the empty text, a present belt renders as its name, and Text14 is always empty |
| ConsentForm.CoachFields | main1/views.py:536-537 | Text11 and Text12 hold the coach's name and belt, each the empty text without a coach or a coach belt |
| FormFill.StripEnds | main1/utils.py:26 | the field key is the annotation name without its first and last character |
| FormFill.FillPdf | main1/utils.py:19-32 | pages come out in order and equal in number; each annotation keeps its name; a named one holds the data value under its key, or the blank when the key is absent; an unnamed one is untouched |
| FormFill.FillPdfIgnoresUnusedKey | main1/utils.py:24-30 | a data entry whose key names no field does not change the result |
| FormFill.FillPdfIdempotent | main1/utils.py:19-32 | filling an already filled template again changes nothing |
| FormFill.FillTextIsReplaceAll | main1/utils.py:59-61 | the `if key in text` test is redundant: the loop equals replacing every key in dictionary order |
| FormFill.FillTextNoKeys | main1/utils.py:58-61 | a text containing none of the keys is unchanged |
| FormFill.FillDoc | main1/utils.py:58-69 | paragraphs and table cells keep their number and place, and each gets the same replacement rule |
| FormFill.FillDocNoKeys | main1/utils.py:58-69 | a document in which no text contains a key comes out unchanged |
| Accounts.FirstName | accounts/models.py:14 | the first name never contains a space |
| Accounts.NameSplit | accounts/models.py:14-15 | with a space, the first name, a space and the last name rebuild the name, and the first name is the text before the first space; without one, the first name is the whole name and the last name is empty |
| Accounts.LinkUserToCoach | accounts/models.py:4-23 | an unknown user or coach changes no user record (the user is looked up first); otherwise only that user's names change, and they rebuild the coach's name |
| Accounts.Clean | accounts/forms.py:21-29 | the form is rejected exactly when the passwords differ; otherwise the data comes back unchanged |
| Accounts.FieldErrors | accounts/forms.py:12-19 | each field error arises exactly on its own condition: an empty username, password, confirmation or type is required, a non-empty type outside the two choices is an invalid choice, and a non-empty username already taken is a duplicate |
| Accounts.Save | accounts/forms.py:31-44 | as evidently intended: one user row is added, plus one profile named after the username: an athlete's for 'athlete', a coach's for 'coach', and none for any other type |
| Accounts.SaveAsWritten | accounts/forms.py:31-44 | as written: the user row is added, no profile ever is, and the save raises exactly for 'athlete' and 'coach', because the profile has no country when `BaseProfile.save` reads it (main1/models.py:121, 141-142) |
| Accounts.SaveAsWrittenLosesProfile | accounts/forms.py:35-42 | for either user type the written save raises and keeps the same users as the intended save, with one profile fewer |
| Accounts.SaveAsWrittenExample | accounts/forms.py:35-42 | registering athlete "ann" on an empty store leaves the user "ann", no profile and the raised error, where the intended save adds the profile ("ann", "ann") |
| Accounts.Register | accounts/forms.py:6-44 | registration fails exactly on a missing field, a taken username, an unknown type or unequal passwords, reporting every such error together; a success is the intended save, adds exactly one user and exactly one profile of the chosen kind, and keeps usernames distinct |
| Registration.Participants | main1/forms.py:191-194 | the athletes taking part are exactly those with a row for the tournament |
| Registration.OfferedMain | main1/forms.py:186-194 | nothing is offered without a tournament; with one, exactly the athletes without a row for it are offered |
| Registration.OfferedClient | client/forms.py:11-16 | construction without a tournament fails; with one, the offer is the same as the `main1` form's |
| Registration.OfferedShrinks | client/forms.py:14-16 | adding participations can only shrink the offered set |
| Registration.OtherTournamentsStayOffered | client/forms.py:14-16 | an athlete whose rows are all for other tournaments is still offered |
| Registration.StepSpec | main1/views.py:64-74 | one iteration keeps the rows as a prefix, leaves the athlete registered, and changes nobody else's registration |
| Registration.RegisterAllCovers | main1/views.py:64-74 | after the loop every selected athlete is registered |
| Registration.RegisterAllNewRows | main1/views.py:66-74 | every new row registers a selected athlete who was not registered before |
| Registration.RegisterAllOthers | main1/views.py:64-74 | registrations of athletes who were not selected are unchanged |
| Registration.RegisterAllKeepsNoDuplicates | client/views.py:18-27 | the loop introduces no duplicate registration |
| Registration.RegisterAllSpec | client/views.py:16-27 | all four loop properties together |
| Registration.RegisterAllNoop | client/views.py:18-27 | when every selected athlete is already registered, nothing is added |
| Registration.RegisterAllIdempotent | client/views.py:16-27 | running the same loop twice equals running it once |
| Registration.RegisterAthletes | main1/views.py:51-77 | an invalid selection changes nothing; a valid one keeps every existing row and registers every selected athlete |
| Registration.RegisterAthletesForCoach | client/views.py:12-27 | an invalid selection changes nothing; a valid one keeps every existing row and gives each selected athlete a new row under the coach |
| Registration.NewAthletesGetNewRows | client/views.py:16-27 | athletes with no row for the tournament each get a new row under the coach |
| Registration.RegisterAthletesTwice | main1/views.py:56-74 | submitting the same selection again changes nothing, because the athletes registered the first time are no longer offered |
| Registration.RegisterAthletesForCoachTwice | client/views.py:12-27 | the same holds for the client view |
| Registration.ByCoachIsAny | client/views.py:18-22 | a row under a coach also counts as a row for the tournament |
| Registration.CoachOffered | main1/forms.py:196-216 | no coach offers nothing; a coach with a region offers exactly that region's athletes, otherwise exactly the athletes assigned to the coach; every offered athlete is a known one |
| Registration.CoachOfferedIgnoresTournament | main1/forms.py:202-216 | an athlete the coach's form offers for one tournament is offered for any tournament or none, and stays offered once registered, whereas the `main1` form withdraws a registered athlete |
| Registration.CoachOfferedClubFirst | main1/forms.py:207-211 | a coach with a club is offered an athlete exactly when the athlete sits in that club, even when the athlete is assigned to that very coach |
| Forms.CleanCoach | main1/forms.py:33-48 | a coach who does not compete has weight and category cleared, with no error; one who competes gets an error on each missing or falsy field, possibly both; the result is error-free exactly when its fields are consistent, and the data is unchanged when valid |
| Forms.CleanCoachIdempotent | main1/forms.py:33-48 | cleaning the cleaned data again gives the same result |
| Forms.FilterByName | main/forms.py:204-209 | the category filter keeps exactly the stored categories whose names are listed |
| Forms.TeamChoices | main1/forms.py:147-151 | the team form offers only stored team categories |
| Forms.IndividualChoices | main/forms.py:215-220 | the association form offers only stored individual categories |
| Forms.CategoryPartition | main/forms.py:204-220 | the team and individual sets are disjoint, their union is the six category choices of main/models.py, and the team ones are exactly the names starting with "team_" |
| Forms.ChoiceValuesSplit | main/models.py:76-83 | the six choices split into the three team and the three individual names |
| Forms.TeamNamesArePrefixed | main/forms.py:204-220 | every team name starts with "team_" and no individual name does |
| Forms.ChoicesSplitStoredCategories | main/forms.py:204-220 | over any stored subset of the choices, each category is offered by exactly one of the two forms |
| Forms.RoleWidgets | main/forms.py:142-168 | each role-specific field is shown exactly when the submitted role is its own; 'level' and 'role_field' show as a select, 'media_house' as a text input |
| Forms.AtMostOneShown | main/forms.py:142-168 | at most one role-specific field is shown |
| Forms.NoneShownOtherwise | main/forms.py:145-156 | a missing, 'athlete' or unrecognised role shows no role-specific field |
| Forms.SavePerson | main/forms.py:27-108 | as evidently intended: with neither flag nothing changes; the athlete and coach stores gain exactly the form's key under their flag; others are untouched; the saved rows carry the form's values and keep their other columns; the athlete is linked to the saved coach with both flags and to none otherwise |
| Forms.SavePersonTwice | main/forms.py:27-108 | saving the same form twice leaves what saving it once left |
| Forms.SavePersonAsWritten | main/forms.py:27-68 | as written: an athlete form for a new identity number or with no belt raises `IntegrityError` and stores nothing; otherwise only the form's athlete changes: it takes the form's personal fields and weight, its coach link is cleared on a form without the coach flag and kept on one with it (the raise comes before the link), its other stored fields stay; the coach store never changes, and a coach form then raises `FieldError` |
| Forms.SavePersonAsWrittenDiffers | main/forms.py:27-108 | the written and intended saves agree on a form that is neither for a coach nor refused in the athlete branch; a refused athlete form stores nothing where the intended one stores the athlete; a coach form raises and stores no new coach where the intended one stores it |
| Forms.NewAthleteRefusedAsWritten | main/forms.py:33-48 | a first-time athlete is refused with `IntegrityError` and nothing stored as written, while the intended save stores the athlete with the form's values |
| Roster.RowOf | main1/views.py:101-120 | a row fails exactly when the profile's division fails; otherwise it holds the profile's fields, with 'N/A' for a missing region, accommodation or belt, together with the age and the profile's own division |
| Roster.RowsOf | main1/views.py:100-121 | the rows fail exactly when some profile's row fails; otherwise there is one row per profile, in order |
| Roster.CompetingCoaches | main1/views.py:97 | the competing coaches are exactly the coaches flagged as athletes |
| Roster.RowsOfAppend | main1/views.py:99-144 | the rows of a concatenation are the concatenated rows, failing when either part fails |
| Roster.AthleteList | main1/views.py:95-146 | the list fails exactly when one of its parts fails; otherwise it is all athletes' rows followed by the competing coaches' rows |
| Roster.EveryoneListed | main1/views.py:95-146 | a list without failures has a row for every athlete and for every coach who also competes |

## Left out

- Weight thresholds are not a gap: Python compares a `Decimal` weight exactly with the double nearest each float literal. The doubles for 50.9, 54.9 and 59.9 lie just below those values and the ones for 64.9 to 89.9 just above, so the integer bounds are 5090, 5489 and 5989, then 6490 to 8990. A weight assigned as a float before saving, rather than read back as a `Decimal`, is not modelled.
- Dates.Age: the source reads the wall clock; here today is a parameter.
- Dates.FormatDMY: `%Y` renders years below 1000 unpadded, as glibc does; other C libraries pad them to four digits.
- Text.Lower: covers ASCII letters only. No non-ASCII character lower-cases onto the letters of 'male' or 'female', so the gender tests are exact.
- Forms.SavePerson: keys the coach store by the form's identity number, as evidently intended; the written lookup by `id_passport_number` raises and is modelled by `Forms.SavePersonAsWritten` (see Findings).
- Forms.SavePerson: the columns the form writes are modelled; the others are an opaque map carried over unchanged.
- Roster.RowOf: the copied columns (photo URL, country, identity and passport numbers, contacts, arrival and departure dates) are not modelled. Region, accommodation and belt are given by name.
- FormFill.FillPdf: states the fill rules the task evidently intends. The written task calls `annot.getObject()` (main1/utils.py:23), a PyPDF2 method name, on a `pdfrw` object; if `pdfrw` does not provide it, every page with annotations raises inside the `try` and the task returns its "Error: ..." text without writing a file. `pdfrw` is not part of this model, so the model does not decide this.
- Document I/O is not modelled: reading and writing PDF and Word files, `fillpdfs`, `pdfrw`, `python-docx`, `os.makedirs`, file paths, the download response, and Celery's `@shared_task`.
- CSV writing and `django.setup()` are not modelled. The per-gender database query is an input.
- PIL image processing in `save()` overrides, and the region assignment in `main1` `save()`, are not modelled.
- `upload_to` is not modelled, because it depends on Django's `slugify`.
- The check-then-create race in both `register_athletes` views is not modelled, because it is about concurrency.
- Querysets are plain finite sets. The model does not cover how `~Q` and `exclude` differ on multi-valued relations.
- Dashboards, generic CRUD views, authentication views, URL configurations, admin registrations, e-mail sending, `static/updare.py` and the client-side JavaScript are outside this model.
- `get_coach_for_user` (main1/utils.py:80-87) is outside this model.
- Accounts.Save: `set_password` hashing and `commit=False` saving are not modelled; the user is the username only.
- Accounts.Register: the model validators of `User.username` (its character set and its 150-character limit) and the 128-character limit of `User.password` are not modelled. The username is compared exactly, without the database's collation.
- Accounts.Register: models the intended save; the written save raises after saving the user and is modelled by `Accounts.SaveAsWritten` (see Findings).

## Findings

| source | as written | input that shows it | evidently intended | confidence | as-written member | corrected member |
|---|---|---|---|---|---|---|
| accounts/forms.py:39-42 | `Athlete.objects.create(user=user, name=user.username)` and the `Coach` counterpart set no `country`, a non-null foreign key (main1/models.py:121); `BaseProfile.save` reads `self.country.name` first (main1/models.py:142) and raises, after the user row was saved at accounts/forms.py:35 | username "ann", passwords "p" and "p", type "athlete", on an empty store | the user and a profile named after them are both saved | not executed; high | Accounts.SaveAsWritten, Accounts.SaveAsWrittenExample | Accounts.Save |
| main/forms.py:65-68 | `Coach.objects.get_or_create(id_passport_number=...)` names a column the `main` app's `Coach` lacks (it has `id_number`, main/models.py:137), so the lookup raises `FieldError`, after the athlete branch has saved when it did not raise itself | any form with `is_coach` set | the coach is looked up by its identity number, saved, and linked to the athlete | not executed; high | Forms.SavePersonAsWritten, Forms.SavePersonAsWrittenDiffers | Forms.SavePerson |
| main/forms.py:33-62 | the athlete `get_or_create` defaults omit `passport_date_of_issue` and `passport_expiry_date`, NOT NULL date columns without a default (main/models.py:178,180), and the optional form `belt` (main/forms.py:20) is written to a NOT NULL foreign key (main/models.py:184); the database refuses the row with `IntegrityError` | an athlete form for an identity number not yet stored | the athlete is created with the form's values | not executed; medium | Forms.SavePersonAsWritten, Forms.NewAthleteRefusedAsWritten | Forms.SavePerson |

=== FILE: accounts.dfy ===
/** The accounts app: copying a coach's name onto a user as first and last
    name, and the registration form's password check and profile creation.
    Users and profiles are plain maps and sequences standing for the
    database tables. */
module Accounts {
  import opened Wrappers
  import opened Text

  /** `name.split(' ')[0]`. */
  function FirstName(name: string): (r: string)
    ensures ' ' !in r
  {
    SplitCharPiecesFree(name, ' ');
    Split(name, " ")[0]
  }

  /** `' '.join(name.split(' ')[1:])`. */
  function LastName(name: string): string {
    Join(" ", Split(name, " ")[1..])
  }

  /** The first name is the text before the first space and the last name
      the text after it; without a space the first name is the whole name
      and the last name is empty. */
  lemma NameSplit(name: string)
    ensures ' ' in name ==> FirstName(name) + " " + LastName(name) == name
    ensures ' ' in name ==> name[..|FirstName(name)|] == FirstName(name) && name[|FirstName(name)|] == ' '
    ensures ' ' !in name ==> FirstName(name) == name && LastName(name) == ""
  {
    var parts := Split(name, " ");
    JoinSplit(name, " ");
    if ' ' in name {
      SplitPresentChar(name, ' ');
      assert Join(" ", parts) == parts[0] + " " + Join(" ", parts[1..]);
      var f := FirstName(name);
      assert name == f + " " + LastName(name);
      assert name[..|f|] == f;
      assert name[|f|] == ' ';
    } else {
      SplitAbsentChar(name, ' ');
    }
  }

  datatype UserRec = UserRec(username: string, firstName: string, lastName: string)

  /** What `link_user_to_coach` reports. */
  datatype LinkOutcome = Linked | NoSuchUser | NoSuchCoach

  /** `link_user_to_coach`: the user is looked up first, then the coach;
      when both exist the user's first and last names are set from the
      coach's name. */
  function LinkUserToCoach(users: map<nat, UserRec>, coachNames: map<nat, string>, userId: nat, coachId: nat)
    : (r: (map<nat, UserRec>, LinkOutcome))
    ensures r.1 == NoSuchUser <==> userId !in users
    ensures r.1 == NoSuchCoach <==> userId in users && coachId !in coachNames
    ensures r.1 != Linked ==> r.0 == users
    ensures r.1 == Linked ==>
      r.0.Keys == users.Keys &&
      (forall u :: u in users && u != userId ==> r.0[u] == users[u]) &&
      r.0[userId].username == users[userId].username &&
      (' ' in coachNames[coachId] ==> r.0[userId].firstName + " " + r.0[userId].lastName == coachNames[coachId]) &&
      (' ' !in coachNames[coachId] ==> r.0[userId].firstName == coachNames[coachId] && r.0[userId].lastName == "")
  {
    if userId !in users then (users, NoSuchUser)
    else if coachId !in coachNames then (users, NoSuchCoach)
    else
      var name := coachNames[coachId];
      NameSplit(name);
      (users[userId := users[userId].(firstName := FirstName(name), lastName := LastName(name))], Linked)
  }

  // ---------------------------------------------------------------------
  // UserRegistrationForm
  // ---------------------------------------------------------------------

  /** `USER_TYPE_CHOICES`. */
  const UserTypes: set<string> := {"athlete", "coach"}

  /** The submitted form, each value as its `CharField` or `ChoiceField`
      cleans it (surrounding whitespace stripped). An empty value fails the
      field's required check, and `cleaned_data.get` then gives `None`,
      which compares with the other password exactly as the empty string
      does. */
  datatype Submission = Submission(
    username: string, password: string, confirmPassword: string, userType: string)

  datatype Field = Username | Password | ConfirmPassword | UserType

  datatype FormError =
    | Required(field: Field)
    | InvalidChoice
    | DuplicateUsername
    | PasswordsDoNotMatch

  /** `clean`: unequal passwords raise the validation error, otherwise the
      data comes back unchanged. */
  function Clean(d: Submission): (r: Result<Submission, FormError>)
    ensures r.Failure? <==> d.password != d.confirmPassword
    ensures r.Failure? ==> r.error == PasswordsDoNotMatch
    ensures r.Success? ==> r.value == d
  {
    if d.password != d.confirmPassword then Failure(PasswordsDoNotMatch) else Success(d)
  }

  /** The errors of one field: the required check, then the choice check
      for the type and, for a username that passed its field, the
      `unique=True` check of `User.username` that model validation runs. */
  function FieldErrors(users: seq<string>, d: Submission): (r: set<FormError>)
    ensures Required(Username) in r <==> d.username == ""
    ensures Required(Password) in r <==> d.password == ""
    ensures Required(ConfirmPassword) in r <==> d.confirmPassword == ""
    ensures Required(UserType) in r <==> d.userType == ""
    ensures InvalidChoice in r <==> d.userType != "" && d.userType !in UserTypes
    ensures DuplicateUsername in r <==> d.username != "" && d.username in users
    ensures PasswordsDoNotMatch !in r
    ensures r == {} <==>
      d.username != "" && d.username !in users && d.password != "" &&
      d.confirmPassword != "" && d.userType in UserTypes
  {
    (if d.username == "" then {Required(Username)} else {})
    + (if d.username != "" && d.username in users then {DuplicateUsername} else {})
    + (if d.password == "" then {Required(Password)} else {})
    + (if d.confirmPassword == "" then {Required(ConfirmPassword)} else {})
    + (if d.userType == "" then {Required(UserType)}
       else if d.userType !in UserTypes then {InvalidChoice} else {})
  }

  /** A profile row: the owning user's name and the profile's name. */
  datatype ProfileRow = ProfileRow(user: string, name: string)

  datatype Store = Store(users: seq<string>, athletes: seq<ProfileRow>, coaches: seq<ProfileRow>)

  /** No two users share a username. */
  predicate DistinctUsers(users: seq<string>) {
    forall i, j :: 0 <= i < j < |users| ==> users[i] != users[j]
  }

  /** `save` with `commit=True` as evidently intended: the user row, then an
      Athlete or a Coach profile named after the username according to the
      type (the profile's country supplied). */
  function Save(s: Store, d: Submission): (r: Store)
    ensures r.users == s.users + [d.username]
    ensures d.userType == "athlete" ==> r.athletes == s.athletes + [ProfileRow(d.username, d.username)] && r.coaches == s.coaches
    ensures d.userType == "coach" ==> r.coaches == s.coaches + [ProfileRow(d.username, d.username)] && r.athletes == s.athletes
    ensures d.userType !in UserTypes ==> r.athletes == s.athletes && r.coaches == s.coaches
  {
    var users := s.users + [d.username];
    var profile := ProfileRow(d.username, d.username);
    if d.userType == "athlete" then Store(users, s.athletes + [profile], s.coaches)
    else if d.userType == "coach" then Store(users, s.athletes, s.coaches + [profile])
    else Store(users, s.athletes, s.coaches)
  }

  /** What `BaseProfile.save` raises when it reads `self.country` on a
      profile whose non-null country was never set. */
  datatype SaveError = RelatedObjectDoesNotExist

  /** The store `save` leaves behind, and what it raised. */
  datatype Saved = Saved(store: Store, raised: Option<SaveError>)

  /** `save` as written: the user row is saved first; the profile is then
      created without a country, so `BaseProfile.save` raises on
      `self.country.name` before inserting it. */
  function SaveAsWritten(s: Store, d: Submission): (r: Saved)
    ensures r.store.users == s.users + [d.username]
    ensures r.store.athletes == s.athletes && r.store.coaches == s.coaches
    ensures r.raised.Some? <==> d.userType in UserTypes
  {
    var users := s.users + [d.username];
    var raised := if d.userType == "athlete" || d.userType == "coach" then Some(RelatedObjectDoesNotExist) else None;
    Saved(Store(users, s.athletes, s.coaches), raised)
  }

  /** As written, every valid registration keeps the new user but leaves it
      without the profile the intended `save` adds. */
  lemma SaveAsWrittenLosesProfile(s: Store, d: Submission)
    requires d.userType in UserTypes
    ensures SaveAsWritten(s, d).raised == Some(RelatedObjectDoesNotExist)
    ensures SaveAsWritten(s, d).store.users == Save(s, d).users
    ensures |Save(s, d).athletes| + |Save(s, d).coaches| ==
      |SaveAsWritten(s, d).store.athletes| + |SaveAsWritten(s, d).store.coaches| + 1
  {
  }

  /** The smallest case: registering athlete "ann" on an empty store. */
  lemma SaveAsWrittenExample()
    ensures var d := Submission("ann", "p", "p", "athlete");
      SaveAsWritten(Store([], [], []), d) == Saved(Store(["ann"], [], []), Some(RelatedObjectDoesNotExist)) &&
      Save(Store([], [], []), d) == Store(["ann"], [ProfileRow("ann", "ann")], [])
  {
  }

  /** Validation then saving, as the registration view drives the form:
      field errors and the `clean` error are reported together, and a valid
      form is saved. A successful registration adds exactly one user, whose
      name was free, and exactly one profile, an athlete's for 'athlete' and
      a coach's for 'coach', named after the username. */
  function Register(s: Store, d: Submission): (r: Result<Store, set<FormError>>)
    ensures r.Failure? <==>
      d.username == "" || d.username in s.users || d.password == "" || d.confirmPassword == "" ||
      d.userType !in UserTypes || d.password != d.confirmPassword
    ensures r.Failure? ==> (PasswordsDoNotMatch in r.error <==> d.password != d.confirmPassword)
    ensures r.Failure? ==> (DuplicateUsername in r.error <==> d.username != "" && d.username in s.users)
    ensures r.Failure? ==> (Required(Username) in r.error <==> d.username == "")
    ensures r.Failure? ==> (InvalidChoice in r.error <==> d.userType != "" && d.userType !in UserTypes)
    ensures r.Success? ==> r.value == Save(s, d)
    ensures r.Success? ==>
      |r.value.users| == |s.users| + 1 &&
      |r.value.athletes| + |r.value.coaches| == |s.athletes| + |s.coaches| + 1 &&
      (d.userType == "athlete" <==> |r.value.athletes| == |s.athletes| + 1) &&
      (d.userType == "coach" <==> |r.value.coaches| == |s.coaches| + 1) &&
      ProfileRow(d.username, d.username) in r.value.athletes + r.value.coaches
    ensures r.Success? && DistinctUsers(s.users) ==> DistinctUsers(r.value.users)
  {
    var errors := FieldErrors(s.users, d) + (if Clean(d).Failure? then {Clean(d).error} else {});
    if errors == {} then
      var t := Save(s, d);
      assert forall i :: 0 <= i < |s.users| ==> t.users[i] == s.users[i] && s.users[i] in s.users;
      Success(t)
    else Failure(errors)
  }
}

=== FILE: consent_form.dfy ===
/** The data `generate_pdf` assembles for one athlete's consent form: the
    name split into family and given names, text defaults for empty
    columns, `DD-MM-YYYY` dates, the three category check boxes, the
    renaming through `FIELD_MAPPING`, and the guard that refuses a template
    lacking one of the fields. `today` is a parameter. */
module ConsentForm {
  import opened Wrappers
  import opened Text
  import opened Dates
  import opened Dicts

  /** A value of the form data: the age is stored as a number, every other
      entry as text. */
  datatype Value = Str(s: string) | Int(n: int)

  datatype CoachInfo = CoachInfo(name: string, belt: Option<string>)

  /** The columns of an athlete the form reads. Weights are hundredths of a
      kilogram; the belt is the belt's name. */
  datatype ConsentAthlete = ConsentAthlete(
    name: string, gender: string, dob: Date, weight: Option<int>, country: string,
    email: Option<string>, contacts: Option<string>, belt: Option<string>,
    coach: Option<CoachInfo>, categories: seq<string>)

  /** `x if x else ''` for a nullable text column. */
  function OrEmpty(o: Option<string>): string {
    o.GetOr("")
  }

  // ---------------------------------------------------------------------
  // Names
  // ---------------------------------------------------------------------

  /** `name.split(' ')[-1] if name else ''`. */
  function FamilyName(name: string): (r: string)
    ensures ' ' !in r
  {
    if name == "" then ""
    else
      var parts := Split(name, " ");
      SplitCharPiecesFree(name, ' ');
      parts[|parts| - 1]
  }

  /** `' '.join(name.split(' ')[:-1]) if name else ''`. */
  function GivenNames(name: string): string {
    if name == "" then ""
    else
      var parts := Split(name, " ");
      Join(" ", parts[..|parts| - 1])
  }

  /** With a space, given names, a space and the family name rebuild the
      name; without one the family name is the whole name and there are no
      given names. */
  lemma NameParts(name: string)
    ensures ' ' in name ==> GivenNames(name) + " " + FamilyName(name) == name
    ensures ' ' !in name ==> FamilyName(name) == name && GivenNames(name) == ""
  {
    if name != "" {
      var parts := Split(name, " ");
      if ' ' in name {
        SplitPresentChar(name, ' ');
        var init := parts[..|parts| - 1];
        assert parts == init + [parts[|parts| - 1]];
        JoinSnoc(" ", init, parts[|parts| - 1]);
        JoinSplit(name, " ");
      } else {
        SplitAbsentChar(name, ' ');
      }
    }
  }

  // ---------------------------------------------------------------------
  // Weight rendering
  // ---------------------------------------------------------------------

  /** `str(weight)` for a two-place `Decimal` held as hundredths: a minus
      sign when negative, the whole part, a point and two digits. */
  function DecimalString(w: int): (r: string)
    ensures |r| >= 4 && r[|r| - 3] == '.'
    ensures forall i :: |r| - 2 <= i < |r| ==> IsDigit(r[i])
  {
    var m := Magnitude(w);
    (if w < 0 then "-" else "") + NatToString(m / 100) + "." + Pad2(m % 100)
  }

  /** Reads a rendered two-place decimal back as hundredths. */
  function ParseDecimal(s: string): Option<int> {
    if |s| >= 4 && s[|s| - 3] == '.' then
      var negative := s[0] == '-';
      var whole := if negative then s[1..|s| - 3] else s[..|s| - 3];
      var frac := s[|s| - 2..];
      if |whole| > 0 && AllDigits(whole) && AllDigits(frac) then
        var m := ParseNat(whole) * 100 + ParseNat(frac);
        Some(if negative then -m else m)
      else None
    else None
  }

  /** Where the parts of `sign + whole + "." + frac` sit. */
  lemma DecimalLayout(sign: string, whole: string, frac: string)
    requires |sign| <= 1 && |whole| > 0 && |frac| == 2
    ensures var s := sign + whole + "." + frac;
      && |s| >= 4 && s[|s| - 3] == '.' && s[|s| - 2..] == frac
      && s[0] == (if |sign| == 1 then sign[0] else whole[0])
      && s[|sign|..|s| - 3] == whole
  {
    var s := sign + whole + "." + frac;
    assert s == (sign + whole) + ("." + frac);
    assert s[|s| - 2..] == frac;
    assert s[|sign|..|s| - 3] == whole;
  }

  /** Reading back a string whose parts are already located. */
  lemma ParseDecimalParts(s: string, whole: string, frac: string)
    requires |s| >= 4 && s[|s| - 3] == '.' && s[|s| - 2..] == frac && AllDigits(frac)
    requires |whole| > 0 && AllDigits(whole)
    requires s[0] == '-' ==> s[1..|s| - 3] == whole
    requires s[0] != '-' ==> s[..|s| - 3] == whole
    ensures ParseDecimal(s) == Some(if s[0] == '-' then -(ParseNat(whole) * 100 + ParseNat(frac))
                                    else ParseNat(whole) * 100 + ParseNat(frac))
  {
  }

  /** The magnitude of a weight and where its whole and fractional parts
      appear in the rendering. */
  function Magnitude(w: int): nat {
    if w < 0 then -w else w
  }

  lemma DecimalStringLayout(w: int)
    ensures var s, whole := DecimalString(w), NatToString(Magnitude(w) / 100);
      && |s| >= 4 && s[|s| - 3] == '.' && s[|s| - 2..] == Pad2(Magnitude(w) % 100)
      && (s[0] == '-' <==> w < 0)
      && (s[0] == '-' ==> s[1..|s| - 3] == whole)
      && (s[0] != '-' ==> s[..|s| - 3] == whole)
  {
    var m := Magnitude(w);
    var sign, whole, frac := if w < 0 then "-" else "", NatToString(m / 100), Pad2(m % 100);
    assert DecimalString(w) == sign + whole + "." + frac;
    DecimalLayout(sign, whole, frac);
    assert IsDigit(whole[0]);
  }

  lemma DivModHundred(m: nat)
    ensures (m / 100) * 100 + m % 100 == m
  {
  }

  /** The rendering loses nothing. */
  lemma ParseDecimalString(w: int)
    ensures ParseDecimal(DecimalString(w)) == Some(w)
  {
    var m := Magnitude(w);
    DecimalStringLayout(w);
    ParseDecimalParts(DecimalString(w), NatToString(m / 100), Pad2(m % 100));
    ParseNatToString(m / 100);
    ParsePad2(m % 100);
    DivModHundred(m);
  }

  // ---------------------------------------------------------------------
  // The form data
  // ---------------------------------------------------------------------

  function YesNo(b: bool): string {
    if b then "Yes" else "No"
  }

  /** `get_category_checks`: one check box per individual category, keyed
      'check1', 'Check2' and 'Check3' as the code spells them. */
  function CategoryChecks(categories: seq<string>): (vs: seq<Value>)
    ensures |vs| == 3
  {
    [ Str(YesNo("individual_form" in categories)),       // check1
      Str(YesNo("special_technique" in categories)),     // Check2
      Str(YesNo("sparring" in categories)) ]             // Check3
  }

  function WeightText(weight: Option<int>): string {
    match weight
    case Some(w) => if w != 0 then DecimalString(w) else ""
    case None => ""
  }

  /** The keys of the assembled data, in insertion order: the sixteen of
      the `athlete_data` literal, then the three check boxes. */
  const DataKeys: seq<string> := [
    "Text1", "Text2", "Text3", "Text16", "Text4", "Text5", "Text6", "Text7",
    "Text8", "Text9", "Text10", "Text11", "Text12", "Text13", "Text14", "Text15",
    "check1", "Check2", "Check3"
  ]

  /** The values of the `athlete_data` literal, in the order of its keys. */
  function BaseValues(a: ConsentAthlete, today: Date): (vs: seq<Value>)
    requires Valid(a.dob) && Valid(today)
    ensures |vs| == 16
  {
    var age := Age(a.dob, today);
    [ Str(FamilyName(a.name)),                                          // Text1
      Str(GivenNames(a.name)),                                          // Text2
      Str(a.gender),                                                    // Text3
      Str(FormatDMY(a.dob)),                                            // Text16
      if age != 0 then Int(age) else Str(""),                           // Text4
      Str(WeightText(a.weight)),                                        // Text5
      Str(a.country),                                                   // Text6
      Str(OrEmpty(a.email)),                                            // Text7
      Str(OrEmpty(a.email)),                                            // Text8
      Str(OrEmpty(a.contacts)),                                         // Text9
      Str(OrEmpty(a.belt)),                                             // Text10
      Str(if a.coach.Some? then a.coach.value.name else ""),            // Text11
      Str(if a.coach.Some? then OrEmpty(a.coach.value.belt) else ""),   // Text12
      Str(a.name),                                                      // Text13
      Str(""),                                                          // Text14
      Str(FormatDMY(today)) ]                                           // Text15
  }

  /** All values in key order, check boxes last. */
  function DataValues(a: ConsentAthlete, today: Date): (vs: seq<Value>)
    requires Valid(a.dob) && Valid(today)
    ensures |vs| == 19
  {
    BaseValues(a, today) + CategoryChecks(a.categories)
  }

  /** Length, first and last character: enough to tell the data keys apart. */
  function KeySignature(k: string): (int, char, char)
    requires |k| > 0
  {
    (|k|, k[0], k[|k| - 1])
  }

  lemma DataKeysDistinct()
    ensures Distinct(DataKeys)
  {
    var sigs := [(5, 'T', '1'), (5, 'T', '2'), (5, 'T', '3'), (6, 'T', '6'), (5, 'T', '4'), (5, 'T', '5'), (5, 'T', '6'), (5, 'T', '7'), (5, 'T', '8'), (5, 'T', '9'), (6, 'T', '0'), (6, 'T', '1'), (6, 'T', '2'), (6, 'T', '3'), (6, 'T', '4'), (6, 'T', '5'), (6, 'c', '1'), (6, 'C', '2'), (6, 'C', '3')];
    assert forall i :: 0 <= i < |DataKeys| ==> |DataKeys[i]| > 0 && KeySignature(DataKeys[i]) == sigs[i];
    assert forall i, j :: 0 <= i < j < |sigs| ==> sigs[i] != sigs[j];
  }

  /** `athlete_data` after `athlete_data.update(get_category_checks(athlete))`:
      nineteen distinct keys, the check boxes appended last. */
  function AthleteData(a: ConsentAthlete, today: Date): Dict<Value>
    requires Valid(a.dob) && Valid(today)
  {
    Zip(DataKeys, DataValues(a, today))
  }

  /** The data has the nineteen keys, each once. */
  lemma AthleteDataKeys(a: ConsentAthlete, today: Date)
    requires Valid(a.dob) && Valid(today)
    ensures Keys(AthleteData(a, today)) == DataKeys
    ensures DistinctKeys(AthleteData(a, today))
  {
    DataKeysDistinct();
    ZipDistinct(DataKeys, DataValues(a, today));
  }

  lemma UpdateBuildsData(a: ConsentAthlete, today: Date)
    requires Valid(a.dob) && Valid(today)
    ensures Update(Zip(DataKeys[..16], BaseValues(a, today)), Zip(DataKeys[16..], CategoryChecks(a.categories)))
      == AthleteData(a, today)
  {
    DataKeysDistinct();
    assert DataKeys[..16] + DataKeys[16..] == DataKeys;
    UpdateZip(DataKeys[..16], BaseValues(a, today), DataKeys[16..], CategoryChecks(a.categories));
  }

  // ---------------------------------------------------------------------
  // The field renaming and the guard
  // ---------------------------------------------------------------------

  /** `FIELD_MAPPING`: descriptive labels to `TextN`/`CheckN` names. */
  const MappingLabels: seq<string> := [
    "Family Name", "Given names", "Gender", "Birthday", "Age", "Weight",
    "Nationality", "Postal Address", "Email", "Telephone", "Martial Arts Style",
    "Instructor", "Rank", "Forms Competition", "Special Techniques", "Free Sparring",
    "Competitor\U{2019}s complete names", "Competitor\U{2019}s Signature", "Date"
  ]

  const MappingTargets: seq<string> := [
    "Text1", "Text2", "Text3", "Text4", "Text5", "Text6",
    "Text7", "Text8", "Text9", "Text10", "Text11",
    "Text12", "Text13", "Check1", "Check2", "Check3",
    "Text14", "Text15", "Text16"
  ]

  const FieldMapping: Dict<string> := Zip(MappingLabels, MappingTargets)

  /** Length and first character of a key. */
  function KeyHead(k: string): (int, char)
    requires |k| > 0
  {
    (|k|, k[0])
  }

  /** The data keys are five- or six-character names starting with 'T',
      'c' or 'C'; no mapping label has that shape. */
  const DataKeyHeads: set<(int, char)> := {(5, 'T'), (6, 'T'), (6, 'c'), (6, 'C')}

  /** No key of the data is a key of the mapping: the mapping's keys are
      labels, the data's keys are already field names. */
  lemma DataKeysUnmapped()
    ensures forall i :: 0 <= i < |DataKeys| ==> !HasKey(FieldMapping, DataKeys[i])
  {
    var heads := [(11, 'F'), (11, 'G'), (6, 'G'), (8, 'B'), (3, 'A'), (6, 'W'), (11, 'N'), (14, 'P'), (5, 'E'), (9, 'T'), (18, 'M'), (10, 'I'), (4, 'R'), (17, 'F'), (18, 'S'), (13, 'F'), (27, 'C'), (22, 'C'), (4, 'D')];
    assert forall j :: 0 <= j < |MappingLabels| ==> |MappingLabels[j]| > 0 && KeyHead(MappingLabels[j]) == heads[j];
    assert forall j :: 0 <= j < |heads| ==> heads[j] !in DataKeyHeads;
    assert forall i :: 0 <= i < |DataKeys| ==> |DataKeys[i]| > 0 && KeyHead(DataKeys[i]) in DataKeyHeads;
    forall i | 0 <= i < |DataKeys|
      ensures !HasKey(FieldMapping, DataKeys[i])
    {
      HasKeyIndex(FieldMapping, DataKeys[i]);
    }
  }

  /** `{FIELD_MAPPING.get(k, k): v for k, v in athlete_data.items()}` is the
      data itself. */
  lemma RenameIsIdentity(a: ConsentAthlete, today: Date)
    requires Valid(a.dob) && Valid(today)
    ensures Rename(AthleteData(a, today), FieldMapping) == AthleteData(a, today)
  {
    var d := AthleteData(a, today);
    AthleteDataKeys(a, today);
    DataKeysUnmapped();
    RenameUnmapped(d, FieldMapping);
  }

  /** The view's outcome: the 400 response, or the data handed to the PDF
      writer. */
  datatype Response = MissingFields | Filled(data: Dict<Value>)

  /** The guard and the fill call of `generate_pdf`, given the template's
      field names. */
  function GeneratePdf(a: ConsentAthlete, today: Date, formFields: set<string>): (r: Response)
    requires Valid(a.dob) && Valid(today)
    ensures r.MissingFields? <==> exists i :: 0 <= i < |DataKeys| && DataKeys[i] !in formFields
    ensures r.Filled? ==> r.data == AthleteData(a, today)
  {
    var d := AthleteData(a, today);
    if forall i :: 0 <= i < |d| ==> d[i].0 in formFields then
      RenameIsIdentity(a, today);
      Filled(Rename(d, FieldMapping))
    else MissingFields
  }

  // ---------------------------------------------------------------------
  // What each field holds
  // ---------------------------------------------------------------------

  /** The value stored under the `i`-th key. */
  lemma FieldAt(a: ConsentAthlete, today: Date, i: nat)
    requires Valid(a.dob) && Valid(today) && i < 19
    ensures Get(AthleteData(a, today), DataKeys[i]) == Some(DataValues(a, today)[i])
  {
    DataKeysDistinct();
    GetZip(DataKeys, DataValues(a, today), i);
  }

  lemma FieldIs(a: ConsentAthlete, today: Date, i: nat, k: string, v: Value)
    requires Valid(a.dob) && Valid(today) && i < 19
    requires DataKeys[i] == k && DataValues(a, today)[i] == v
    ensures Get(AthleteData(a, today), k) == Some(v)
  {
    FieldAt(a, today, i);
  }

  lemma DataKeyNames()
    ensures DataKeys[0] == "Text1" && DataKeys[1] == "Text2" && DataKeys[2] == "Text3" && DataKeys[3] == "Text16"
    ensures DataKeys[4] == "Text4" && DataKeys[5] == "Text5" && DataKeys[6] == "Text6" && DataKeys[7] == "Text7"
    ensures DataKeys[8] == "Text8" && DataKeys[9] == "Text9" && DataKeys[10] == "Text10" && DataKeys[11] == "Text11"
    ensures DataKeys[12] == "Text12" && DataKeys[13] == "Text13" && DataKeys[14] == "Text14" && DataKeys[15] == "Text15"
    ensures DataKeys[16] == "check1" && DataKeys[17] == "Check2" && DataKeys[18] == "Check3"
  {
  }

  /** The name and contact columns of the data. */
  lemma NameValues(a: ConsentAthlete, today: Date)
    requires Valid(a.dob) && Valid(today)
    ensures var vs := DataValues(a, today);
      && vs[0] == Str(FamilyName(a.name)) && vs[1] == Str(GivenNames(a.name))
      && vs[7] == Str(OrEmpty(a.email)) && vs[8] == Str(OrEmpty(a.email))
      && vs[13] == Str(a.name)
  {
  }

  /** The contact, belt and coach columns of the data. */
  lemma ClubValues(a: ConsentAthlete, today: Date)
    requires Valid(a.dob) && Valid(today)
    ensures var vs := DataValues(a, today);
      && vs[9] == Str(OrEmpty(a.contacts)) && vs[10] == Str(OrEmpty(a.belt))
      && vs[11] == Str(if a.coach.Some? then a.coach.value.name else "")
      && vs[12] == Str(if a.coach.Some? then OrEmpty(a.coach.value.belt) else "")
      && vs[14] == Str("")
  {
  }

  /** The date, age and weight columns of the data. */
  lemma RenderedValues(a: ConsentAthlete, today: Date)
    requires Valid(a.dob) && Valid(today)
    ensures var vs := DataValues(a, today);
      && vs[3] == Str(FormatDMY(a.dob)) && vs[15] == Str(FormatDMY(today))
      && vs[4] == (if Age(a.dob, today) != 0 then Int(Age(a.dob, today)) else Str(""))
      && vs[5] == Str(WeightText(a.weight))
  {
  }

  /** Text1 holds the family name and Text2 the given names; with a space
      in the name, Text2, a space and Text1 rebuild it; without one Text1 is
      the whole name and Text2 is empty. Text13 is the full name. */
  lemma NameFields(a: ConsentAthlete, today: Date)
    requires Valid(a.dob) && Valid(today)
    ensures Get(AthleteData(a, today), "Text13") == Some(Str(a.name))
    ensures ' ' in a.name ==>
      exists family, given ::
        Get(AthleteData(a, today), "Text1") == Some(Str(family)) &&
        Get(AthleteData(a, today), "Text2") == Some(Str(given)) &&
        given + " " + family == a.name && ' ' !in family
    ensures ' ' !in a.name ==>
      Get(AthleteData(a, today), "Text1") == Some(Str(a.name)) &&
      Get(AthleteData(a, today), "Text2") == Some(Str(""))
  {
    DataKeyNames();
    NameValues(a, today);
    FieldIs(a, today, 0, "Text1", Str(FamilyName(a.name)));
    FieldIs(a, today, 1, "Text2", Str(GivenNames(a.name)));
    FieldIs(a, today, 13, "Text13", Str(a.name));
    NameParts(a.name);
  }

  /** Each check box reads 'Yes' exactly when its category is held, and
      'No' otherwise; each depends on its own category only. */
  lemma CheckFields(a: ConsentAthlete, today: Date)
    requires Valid(a.dob) && Valid(today)
    ensures Get(AthleteData(a, today), "check1") == Some(Str("Yes")) <==> "individual_form" in a.categories
    ensures Get(AthleteData(a, today), "Check2") == Some(Str("Yes")) <==> "special_technique" in a.categories
    ensures Get(AthleteData(a, today), "Check3") == Some(Str("Yes")) <==> "sparring" in a.categories
    ensures "individual_form" !in a.categories ==> Get(AthleteData(a, today), "check1") == Some(Str("No"))
    ensures "special_technique" !in a.categories ==> Get(AthleteData(a, today), "Check2") == Some(Str("No"))
    ensures "sparring" !in a.categories ==> Get(AthleteData(a, today), "Check3") == Some(Str("No"))
  {
    DataKeyNames();
    var checks := CategoryChecks(a.categories);
    assert DataValues(a, today)[16..] == checks;
    FieldIs(a, today, 16, "check1", checks[0]);
    FieldIs(a, today, 17, "Check2", checks[1]);
    FieldIs(a, today, 18, "Check3", checks[2]);
  }

  /** Text16 (date of birth) and Text15 (today) are `DD-MM-YYYY` renderings
      that read back as those dates. */
  lemma DateFields(a: ConsentAthlete, today: Date)
    requires Valid(a.dob) && Valid(today)
    ensures exists s :: Get(AthleteData(a, today), "Text16") == Some(Str(s)) && ParseDMY(s) == Some(a.dob)
    ensures exists s :: Get(AthleteData(a, today), "Text15") == Some(Str(s)) && ParseDMY(s) == Some(today)
  {
    DataKeyNames();
    RenderedValues(a, today);
    FieldIs(a, today, 3, "Text16", Str(FormatDMY(a.dob)));
    FieldIs(a, today, 15, "Text15", Str(FormatDMY(today)));
    ParseFormatDMY(a.dob);
    ParseFormatDMY(today);
  }

  /** A missing or zero weight renders as the empty text, any other
      weight as a decimal that reads back as the weight; a zero age renders
      as the empty text, any other age is kept as a number. */
  lemma WeightAgeFields(a: ConsentAthlete, today: Date)
    requires Valid(a.dob) && Valid(today)
    ensures (a.weight == None || a.weight == Some(0)) ==> Get(AthleteData(a, today), "Text5") == Some(Str(""))
    ensures (a.weight.Some? && a.weight.value != 0) ==>
      exists s :: Get(AthleteData(a, today), "Text5") == Some(Str(s)) && ParseDecimal(s) == a.weight
    ensures Age(a.dob, today) == 0 ==> Get(AthleteData(a, today), "Text4") == Some(Str(""))
    ensures Age(a.dob, today) != 0 ==> Get(AthleteData(a, today), "Text4") == Some(Int(Age(a.dob, today)))
  {
    DataKeyNames();
    RenderedValues(a, today);
    var age := Age(a.dob, today);
    FieldIs(a, today, 4, "Text4", if age != 0 then Int(age) else Str(""));
    FieldIs(a, today, 5, "Text5", Str(WeightText(a.weight)));
    if a.weight.Some? && a.weight.value != 0 {
      ParseDecimalString(a.weight.value);
    }
  }

  /** The e-mail fills both Text7 and Text8, the empty text when missing. */
  lemma EmailFields(a: ConsentAthlete, today: Date)
    requires Valid(a.dob) && Valid(today)
    ensures Get(AthleteData(a, today), "Text7") == Get(AthleteData(a, today), "Text8")
    ensures a.email.None? ==> Get(AthleteData(a, today), "Text7") == Some(Str(""))
    ensures a.email.Some? ==> Get(AthleteData(a, today), "Text7") == Some(Str(a.email.value))
  {
    DataKeyNames();
    NameValues(a, today);
    FieldIs(a, today, 7, "Text7", Str(OrEmpty(a.email)));
    FieldIs(a, today, 8, "Text8", Str(OrEmpty(a.email)));
  }

  /** Missing contacts or belt render as the empty text; Text14 is always
      empty. */
  lemma ContactFields(a: ConsentAthlete, today: Date)
    requires Valid(a.dob) && Valid(today)
    ensures a.contacts.None? ==> Get(AthleteData(a, today), "Text9") == Some(Str(""))
    ensures a.belt.None? ==> Get(AthleteData(a, today), "Text10") == Some(Str(""))
    ensures a.belt.Some? ==> Get(AthleteData(a, today), "Text10") == Some(Str(a.belt.value))
    ensures Get(AthleteData(a, today), "Text14") == Some(Str(""))
  {
    DataKeyNames();
    ClubValues(a, today);
    FieldIs(a, today, 9, "Text9", Str(OrEmpty(a.contacts)));
    FieldIs(a, today, 10, "Text10", Str(OrEmpty(a.belt)));
    FieldIs(a, today, 14, "Text14", Str(""));
  }

  /** Text11 is the coach's name and Text12 the coach's belt, each the
      empty text when there is no coach or no coach belt. */
  lemma CoachFields(a: ConsentAthlete, today: Date)
    requires Valid(a.dob) && Valid(today)
    ensures a.coach.None? ==>
      Get(AthleteData(a, today), "Text11") == Some(Str("")) && Get(AthleteData(a, today), "Text12") == Some(Str(""))
    ensures a.coach.Some? ==> Get(AthleteData(a, today), "Text11") == Some(Str(a.coach.value.name))
    ensures (a.coach.Some? && a.coach.value.belt.None?) ==> Get(AthleteData(a, today), "Text12") == Some(Str(""))
    ensures (a.coach.Some? && a.coach.value.belt.Some?) ==>
      Get(AthleteData(a, today), "Text12") == Some(Str(a.coach.value.belt.value))
  {
    DataKeyNames();
    ClubValues(a, today);
    FieldIs(a, today, 11, "Text11", Str(if a.coach.Some? then a.coach.value.name else ""));
    FieldIs(a, today, 12, "Text12", Str(if a.coach.Some? then OrEmpty(a.coach.value.belt) else ""));
  }
}

=== FILE: dates.dfy ===
/** Calendar dates as Python's `datetime.date`, the age rule shared by
    `BaseProfile.age`, `Athlete.age` and the export script's `calculate_age`,
    and the `DD-MM-YYYY` rendering produced by `strftime('%d-%m-%Y')`. */
module Dates {
  import opened Text
  import opened Wrappers

  datatype Date = Date(year: int, month: int, day: int)

  predicate IsLeap(y: int) {
    y % 4 == 0 && (y % 100 != 0 || y % 400 == 0)
  }

  function DaysInMonth(y: int, m: int): int {
    if m == 2 then (if IsLeap(y) then 29 else 28)
    else if m == 4 || m == 6 || m == 9 || m == 11 then 30
    else 31
  }

  /** The dates `datetime.date` can represent. */
  predicate Valid(d: Date) {
    1 <= d.year <= 9999 && 1 <= d.month <= 12 && 1 <= d.day <= DaysInMonth(d.year, d.month)
  }

  /** Python's tuple comparison `(a.month, a.day) < (b.month, b.day)`. */
  predicate MonthDayBefore(a: Date, b: Date) {
    a.month < b.month || (a.month == b.month && a.day < b.day)
  }

  /** Strict chronological order of dates. */
  predicate Before(a: Date, b: Date) {
    a.year < b.year || (a.year == b.year && MonthDayBefore(a, b))
  }

  predicate AtOrBefore(a: Date, b: Date) {
    a == b || Before(a, b)
  }

  /** The `k`-th anniversary of `dob` (possibly a 29 February of a common year). */
  function Anniversary(dob: Date, k: int): Date {
    Date(dob.year + k, dob.month, dob.day)
  }

  /** Completed years from `dob` to `today`: the year difference, minus one
      when this year's birthday has not been reached. `today` is passed in
      where the source reads the wall clock. The result is the number `k`
      whose `k`-th anniversary has been reached and whose `k+1`-th has not. */
  function Age(dob: Date, today: Date): (r: int)
    ensures AtOrBefore(Anniversary(dob, r), today)
    ensures Before(today, Anniversary(dob, r + 1))
  {
    today.year - dob.year - (if MonthDayBefore(today, dob) then 1 else 0)
  }

  /** The anniversary characterisation determines the age uniquely. */
  lemma AgeUnique(dob: Date, today: Date, k: int)
    requires AtOrBefore(Anniversary(dob, k), today)
    requires Before(today, Anniversary(dob, k + 1))
    ensures k == Age(dob, today)
  {
  }

  /** On the birthday itself the age is exactly the year difference. */
  lemma AgeOnBirthday(dob: Date, today: Date)
    requires today.month == dob.month && today.day == dob.day
    ensures Age(dob, today) == today.year - dob.year
  {
  }

  /** The date immediately before a valid date other than 1 January of year 1. */
  function DayBefore(d: Date): (r: Date)
    requires Valid(d) && d != Date(1, 1, 1)
    ensures Valid(r) && Before(r, d)
  {
    if d.day > 1 then Date(d.year, d.month, d.day - 1)
    else if d.month > 1 then Date(d.year, d.month - 1, DaysInMonth(d.year, d.month - 1))
    else Date(d.year - 1, 12, 31)
  }

  /** No valid date lies strictly between `DayBefore(d)` and `d`. */
  lemma DayBeforeImmediate(d: Date, x: Date)
    requires Valid(d) && d != Date(1, 1, 1) && Valid(x)
    requires Before(x, d)
    ensures AtOrBefore(x, DayBefore(d))
  {
  }

  /** The day before a birthday the age is one less than on the birthday. */
  lemma AgeDayBeforeBirthday(dob: Date, y: int)
    requires Valid(dob)
    requires Valid(Date(y, dob.month, dob.day)) && Date(y, dob.month, dob.day) != Date(1, 1, 1)
    ensures Age(dob, DayBefore(Date(y, dob.month, dob.day))) == y - dob.year - 1
    ensures Age(dob, Date(y, dob.month, dob.day)) == y - dob.year
  {
  }

  /** A date of birth not after `today` gives a non-negative age. */
  lemma AgeNonNegative(dob: Date, today: Date)
    requires AtOrBefore(dob, today)
    ensures Age(dob, today) >= 0
  {
  }

  /** Age never decreases as `today` advances. */
  lemma AgeMonotone(dob: Date, t1: Date, t2: Date)
    requires AtOrBefore(t1, t2)
    ensures Age(dob, t1) <= Age(dob, t2)
  {
  }

  /** `d.strftime('%d-%m-%Y')`: two-digit day and month; the year is written
      as a plain decimal number, four digits for every year from 1000. */
  function FormatDMY(d: Date): (r: string)
    requires Valid(d)
    ensures |r| >= 7 && r[2] == '-' && r[5] == '-'
    ensures 1000 <= d.year ==> |r| == 10
  {
    NatToStringFourDigits(d.year);
    Pad2(d.day) + "-" + Pad2(d.month) + "-" + NatToString(d.year)
  }

  lemma NatToStringFourDigits(n: nat)
    ensures 1000 <= n < 10000 ==> |NatToString(n)| == 4
  {
    if 1000 <= n < 10000 {
      assert |NatToString(n / 10)| == 3 by {
        assert |NatToString(n / 100)| == 2 by {
          assert |NatToString(n / 1000)| == 1;
        }
      }
    }
  }

  predicate AllDigits(s: string) {
    forall i :: 0 <= i < |s| ==> IsDigit(s[i])
  }

  /** Reads a `DD-MM-Y...` string back into a date. */
  function ParseDMY(s: string): Option<Date> {
    if |s| >= 7 && s[2] == '-' && s[5] == '-'
       && AllDigits(s[..2]) && AllDigits(s[3..5]) && AllDigits(s[6..])
    then Some(Date(ParseNat(s[6..]), ParseNat(s[3..5]), ParseNat(s[..2])))
    else None
  }

  /** The rendering loses nothing: reading it back gives the date. */
  lemma ParseFormatDMY(d: Date)
    requires Valid(d)
    ensures ParseDMY(FormatDMY(d)) == Some(d)
  {
    var s := FormatDMY(d);
    assert s[..2] == Pad2(d.day);
    assert s[3..5] == Pad2(d.month);
    assert s[6..] == NatToString(d.year);
    ParsePad2(d.day);
    ParsePad2(d.month);
    ParseNatToString(d.year);
  }
}

=== FILE: dicts.dfy ===
/** Python dictionaries with string keys, kept as their items in insertion
    order: lookup, `d[k] = v`, `d.update(e)` and building a dict from a
    sequence of items, where a repeated key keeps its first position and
    takes its last value. */
module Dicts {
  import opened Wrappers

  type Dict<V> = seq<(string, V)>

  /** `k in d`. */
  predicate HasKey<V>(d: Dict<V>, k: string)
    decreases |d|
  {
    |d| > 0 && (d[0].0 == k || HasKey(d[1..], k))
  }

  /** The keys in order, as `list(d.keys())`. */
  function Keys<V>(d: Dict<V>): (ks: seq<string>)
    ensures |ks| == |d|
    ensures forall i :: 0 <= i < |d| ==> ks[i] == d[i].0
  {
    seq(|d|, i requires 0 <= i < |d| => d[i].0)
  }

  lemma {:induction false} HasKeyIndex<V>(d: Dict<V>, k: string)
    ensures HasKey(d, k) <==> k in Keys(d)
    decreases |d|
  {
    if |d| > 0 {
      HasKeyIndex(d[1..], k);
      assert Keys(d) == [d[0].0] + Keys(d[1..]);
    }
  }

  /** The dictionary pairing each key with the value at the same position. */
  function Zip<V>(ks: seq<string>, vs: seq<V>): (d: Dict<V>)
    requires |ks| == |vs|
    ensures Keys(d) == ks
  {
    seq(|ks|, i requires 0 <= i < |ks| => (ks[i], vs[i]))
  }

  /** A dictionary never holds a key twice. */
  predicate DistinctKeys<V>(d: Dict<V>) {
    forall i, j :: 0 <= i < j < |d| ==> d[i].0 != d[j].0
  }

  /** `d.get(k)`: the value stored under `k`, if any. */
  function Get<V>(d: Dict<V>, k: string): (r: Option<V>)
    ensures r.None? <==> !HasKey(d, k)
    ensures r.Some? ==> exists i :: 0 <= i < |d| && d[i] == (k, r.value)
  {
    if |d| == 0 then None
    else if d[0].0 == k then Some(d[0].1)
    else
      Get(d[1..], k)
  }

  /** With distinct keys, the value found is the one stored with the key. */
  lemma {:induction false} GetDistinct<V>(d: Dict<V>, i: nat)
    requires DistinctKeys(d) && i < |d|
    ensures Get(d, d[i].0) == Some(d[i].1)
  {
    if i > 0 {
      var tail := d[1..];
      assert DistinctKeys(tail) by {
        forall a, b | 0 <= a < b < |tail|
          ensures tail[a].0 != tail[b].0
        {
          assert tail[a] == d[a + 1] && tail[b] == d[b + 1];
        }
      }
      assert tail[i - 1] == d[i];
      GetDistinct(tail, i - 1);
    }
  }

  /** `d.get(k, default)`. */
  function GetOr<V>(d: Dict<V>, k: string, default: V): V {
    Get(d, k).GetOr(default)
  }

  /** `d[k] = v`: an existing key keeps its position and takes the new
      value; a new key is appended. */
  function Put<V>(d: Dict<V>, k: string, v: V): (r: Dict<V>)
    ensures Get(r, k) == Some(v)
    ensures forall k' :: k' != k ==> Get(r, k') == Get(d, k')
    ensures !HasKey(d, k) ==> r == d + [(k, v)]
  {
    if |d| == 0 then [(k, v)]
    else if d[0].0 == k then [(k, v)] + d[1..]
    else
      var rest := Put(d[1..], k, v);
      var r := [d[0]] + rest;
      assert r[1..] == rest;
      r
  }

  /** `d.update(e)`: the items of `e` put one after the other. */
  function Update<V>(d: Dict<V>, e: Dict<V>): Dict<V>
    decreases |e|
  {
    if |e| == 0 then d else Update(Put(d, e[0].0, e[0].1), e[1..])
  }

  /** `dict(items)`, also a dict comprehension over `items`. */
  function FromItems<V>(items: seq<(string, V)>): Dict<V> {
    Update([], items)
  }

  lemma {:induction false} HasKeyAppend<V>(d: Dict<V>, x: (string, V), k: string)
    ensures HasKey(d + [x], k) <==> HasKey(d, k) || x.0 == k
    decreases |d|
  {
    if |d| > 0 {
      assert (d + [x])[1..] == d[1..] + [x];
      HasKeyAppend(d[1..], x, k);
    }
  }

  lemma AppendHeadTail<T>(d: seq<T>, e: seq<T>)
    requires |e| > 0
    ensures (d + [e[0]]) + e[1..] == d + e
  {
    assert e == [e[0]] + e[1..];
  }

  /** Putting items whose keys are new and distinct appends them in order. */
  lemma {:induction false} UpdateFresh<V>(d: Dict<V>, e: Dict<V>)
    requires DistinctKeys(e)
    requires forall i :: 0 <= i < |e| ==> !HasKey(d, e[i].0)
    ensures Update(d, e) == d + e
    decreases |e|
  {
    if |e| > 0 {
      var d' := d + [e[0]];
      assert Put(d, e[0].0, e[0].1) == d';
      var rest := e[1..];
      forall i | 0 <= i < |rest|
        ensures !HasKey(d', rest[i].0)
      {
        assert rest[i] == e[i + 1];
        HasKeyAppend(d, e[0], rest[i].0);
      }
      UpdateFresh(d', rest);
      AppendHeadTail(d, e);
    }
  }

  /** Items with distinct keys form the dictionary they list. */
  lemma FromDistinctItems<V>(items: seq<(string, V)>)
    requires DistinctKeys(items)
    ensures FromItems(items) == items
  {
    UpdateFresh([], items);
  }

  /** `{mapping.get(k, k): v for k, v in d.items()}`: each key renamed
      through `mapping`, kept when `mapping` has no entry for it. */
  function Rename<V>(d: Dict<V>, mapping: Dict<string>): Dict<V> {
    FromItems(seq(|d|, i requires 0 <= i < |d| => (GetOr(mapping, d[i].0, d[i].0), d[i].1)))
  }

  /** Renaming through a mapping that names none of the keys changes nothing. */
  lemma RenameUnmapped<V>(d: Dict<V>, mapping: Dict<string>)
    requires DistinctKeys(d)
    requires forall i :: 0 <= i < |d| ==> !HasKey(mapping, d[i].0)
    ensures Rename(d, mapping) == d
  {
    var items := seq(|d|, i requires 0 <= i < |d| => (GetOr(mapping, d[i].0, d[i].0), d[i].1));
    assert items == d;
    FromDistinctItems(d);
  }

  /** A sequence of keys without repetition. */
  predicate Distinct(ks: seq<string>) {
    forall i, j :: 0 <= i < j < |ks| ==> ks[i] != ks[j]
  }

  lemma ZipDistinct<V>(ks: seq<string>, vs: seq<V>)
    requires |ks| == |vs| && Distinct(ks)
    ensures DistinctKeys(Zip(ks, vs))
  {
    var d := Zip(ks, vs);
    forall i, j | 0 <= i < j < |d|
      ensures d[i].0 != d[j].0
    {
      assert d[i].0 == ks[i] && d[j].0 == ks[j];
    }
  }

  lemma DistinctSuffix(ks1: seq<string>, ks2: seq<string>)
    requires Distinct(ks1 + ks2)
    ensures Distinct(ks2)
  {
    forall i, j | 0 <= i < j < |ks2|
      ensures ks2[i] != ks2[j]
    {
      assert ks2[i] == (ks1 + ks2)[|ks1| + i] && ks2[j] == (ks1 + ks2)[|ks1| + j];
    }
  }

  lemma ZipFreshKeys<V>(ks1: seq<string>, vs1: seq<V>, ks2: seq<string>)
    requires |ks1| == |vs1| && Distinct(ks1 + ks2)
    ensures forall i :: 0 <= i < |ks2| ==> !HasKey(Zip(ks1, vs1), ks2[i])
  {
    var d := Zip(ks1, vs1);
    forall i | 0 <= i < |ks2|
      ensures !HasKey(d, ks2[i])
    {
      HasKeyIndex(d, ks2[i]);
      assert ks2[i] == (ks1 + ks2)[|ks1| + i];
      assert forall j :: 0 <= j < |ks1| ==> ks1[j] == (ks1 + ks2)[j];
    }
  }

  lemma ZipAppend<V>(ks1: seq<string>, vs1: seq<V>, ks2: seq<string>, vs2: seq<V>)
    requires |ks1| == |vs1| && |ks2| == |vs2|
    ensures Zip(ks1, vs1) + Zip(ks2, vs2) == Zip(ks1 + ks2, vs1 + vs2)
  {
  }

  /** Updating a dictionary built from keys and values with fresh keys
      appends them. */
  lemma UpdateZip<V>(ks1: seq<string>, vs1: seq<V>, ks2: seq<string>, vs2: seq<V>)
    requires |ks1| == |vs1| && |ks2| == |vs2| && Distinct(ks1 + ks2)
    ensures Update(Zip(ks1, vs1), Zip(ks2, vs2)) == Zip(ks1 + ks2, vs1 + vs2)
  {
    var e := Zip(ks2, vs2);
    DistinctSuffix(ks1, ks2);
    ZipDistinct(ks2, vs2);
    ZipFreshKeys(ks1, vs1, ks2);
    assert forall i :: 0 <= i < |e| ==> e[i].0 == ks2[i];
    UpdateFresh(Zip(ks1, vs1), e);
    ZipAppend(ks1, vs1, ks2, vs2);
  }

  /** Looking a key up in a dictionary built from distinct keys finds the
      value at the key's position. */
  lemma GetZip<V>(ks: seq<string>, vs: seq<V>, i: nat)
    requires |ks| == |vs| && Distinct(ks) && i < |ks|
    ensures Get(Zip(ks, vs), ks[i]) == Some(vs[i])
  {
    ZipDistinct(ks, vs);
    GetDistinct(Zip(ks, vs), i);
  }
}

=== FILE: export.dfy ===
/** The CSV export script: for each gender and each of twelve division
    names, the adult athletes whose division is that name, written to a
    file named after the pair. `today` is a parameter; the per-gender
    database query is the caller's input; writing the files is not
    modelled, only which files with which rows would be written. */
module Export {
  import opened Text
  import opened Wrappers
  import opened Dates
  import opened WeightDivision

  const Genders: seq<string> := ["male", "female"]

  /** The script's `categories` list, in its order. */
  const Categories: seq<string> := [
    Fin, Fly, Bantam, Feather, Light, Welter, Middle, Heavy,
    SuperHeavy, SuperHeavyLevel1, SuperHeavyLevel0, Unknown
  ]

  /** The list has no repeated entry and names exactly the classifier's
      labels, so every classified athlete belongs to one pass. */
  lemma CategoriesCoverLabels()
    ensures forall i, j :: 0 <= i < j < |Categories| ==> Categories[i] != Categories[j]
    ensures forall l :: l in Labels <==> l in Categories
  {
  }

  /** An athlete as the script reads it. */
  datatype ExportAthlete = ExportAthlete(
    name: string, dob: Date, gender: string, weight: Option<int>, belt: Option<string>)

  function ProfileOf(a: ExportAthlete): Profile {
    Profile(a.gender, a.dob, a.weight)
  }

  /** `calculate_age(dob) >= 18 and athlete.get_weight_category == category`. */
  predicate Selected(a: ExportAthlete, category: string, today: Date) {
    Age(a.dob, today) >= 18 && ProfileCategory(ProfileOf(a), today) == Success(category)
  }

  /** Evaluating the selection raises when an adult's division needs a
      missing weight (`and` skips the division for minors). */
  predicate Raises(a: ExportAthlete, today: Date) {
    Age(a.dob, today) >= 18 && ProfileCategory(ProfileOf(a), today).Failure?
  }

  /** The list comprehension `filtered_athletes` of one pass. */
  function Select(athletes: seq<ExportAthlete>, category: string, today: Date): (r: Result<seq<ExportAthlete>, ComparisonError>)
    ensures r.Failure? <==> exists i :: 0 <= i < |athletes| && Raises(athletes[i], today)
    ensures r.Success? ==> forall a :: a in r.value <==> a in athletes && Selected(a, category, today)
  {
    if |athletes| == 0 then Success([])
    else
      var a := athletes[0];
      var rest := Select(athletes[1..], category, today);
      if Age(a.dob, today) < 18 then rest
      else match ProfileCategory(ProfileOf(a), today)
        case Failure(e) => Failure(e)
        case Success(l) =>
          if rest.Failure? then rest
          else if l == category then Success([a] + rest.value)
          else rest
  }

  /** The selection of one athlete: it raises, keeps the athlete, or
      drops it. */
  lemma SelectSingle(a: ExportAthlete, category: string, today: Date)
    ensures Select([a], category, today) ==
      if Raises(a, today) then Failure(TypeError)
      else if Selected(a, category, today) then Success([a])
      else Success([])
  {
    assert [a][1..] == [] && [a] + [] == [a];
    assert Select([], category, today) == Success([]);
  }

  /** The selection distributes over concatenation, so it keeps the query's
      order: together with `SelectSingle` this fixes the result. */
  lemma {:induction false} SelectAppend(xs: seq<ExportAthlete>, ys: seq<ExportAthlete>, category: string, today: Date)
    ensures Select(xs + ys, category, today).Failure? <==>
      Select(xs, category, today).Failure? || Select(ys, category, today).Failure?
    ensures Select(xs + ys, category, today).Success? ==>
      Select(xs + ys, category, today).value == Select(xs, category, today).value + Select(ys, category, today).value
    decreases |xs|
  {
    if |xs| == 0 {
      assert xs + ys == ys;
    } else {
      assert (xs + ys)[0] == xs[0];
      assert (xs + ys)[1..] == xs[1..] + ys;
      SelectAppend(xs[1..], ys, category, today);
    }
  }

  /** For a fixed gender, every adult whose division is defined is selected
      in exactly one of the twelve passes. */
  lemma ExactlyOnePass(a: ExportAthlete, today: Date)
    requires Age(a.dob, today) >= 18 && ProfileCategory(ProfileOf(a), today).Success?
    ensures exists i :: 0 <= i < |Categories| && Selected(a, Categories[i], today)
    ensures forall i, j ::
      (0 <= i < |Categories| && 0 <= j < |Categories| &&
       Selected(a, Categories[i], today) && Selected(a, Categories[j], today)) ==> i == j
  {
    CategoriesCoverLabels();
    var l := ProfileCategory(ProfileOf(a), today).value;
    assert l in Labels;
    var i :| 0 <= i < |Categories| && Categories[i] == l;
    assert Selected(a, Categories[i], today);
  }

  function SlugChar(c: char): char {
    LowerChar(if c == ' ' then '_' else c)
  }

  /** `category.replace(' ', '_').lower()`: character by character, a space
      becomes an underscore and an upper-case letter its lower-case form. */
  function Slug(category: string): (r: string)
    ensures |r| == |category|
    ensures forall i :: 0 <= i < |category| ==> r[i] == SlugChar(category[i])
  {
    ReplaceChar(category, ' ', '_');
    Lower(Replace(category, " ", "_"))
  }

  /** `f"{gender}_{category.replace(' ', '_').lower()}.csv"`. */
  function Filename(gender: string, category: string): (r: string)
    ensures ' ' !in gender ==> ' ' !in r
  {
    gender + "_" + Slug(category) + ".csv"
  }

  /** A few characters that tell the twelve slugs apart. */
  function Signature(s: string): (int, char, char, char)
    requires |s| >= 2
  {
    (|s|, s[0], s[1], s[|s| - 1])
  }

  const Signatures: seq<(int, char, char, char)> := [
    (19, 'f', 'i', 'n'), (19, 'f', 'l', 'n'), (22, 'b', 'a', 'n'), (23, 'f', 'e', 'n'),
    (21, 'l', 'i', 'n'), (22, 'w', 'e', 'n'), (22, 'm', 'i', 'n'), (21, 'h', 'e', 'n'),
    (27, 's', 'u', 'n'), (35, 's', 'u', '1'), (35, 's', 'u', '0'), (16, 'u', 'n', 'y')
  ]

  /** The signature of one slug, read off its category name. */
  lemma SlugSignature(c: string, sig: (int, char, char, char))
    requires |c| >= 2 && sig == (|c|, SlugChar(c[0]), SlugChar(c[1]), SlugChar(c[|c| - 1]))
    ensures Signature(Slug(c)) == sig
  {
  }

  /** The signature of the `i`-th slug. */
  lemma CategorySignature(i: nat)
    requires i < |Categories|
    ensures Signature(Slug(Categories[i])) == Signatures[i]
  {
    if i == 0 {
      SlugSignature(Categories[0], Signatures[0]);
    } else if i == 1 {
      SlugSignature(Categories[1], Signatures[1]);
    } else if i == 2 {
      SlugSignature(Categories[2], Signatures[2]);
    } else if i == 3 {
      SlugSignature(Categories[3], Signatures[3]);
    } else if i == 4 {
      SlugSignature(Categories[4], Signatures[4]);
    } else if i == 5 {
      SlugSignature(Categories[5], Signatures[5]);
    } else if i == 6 {
      SlugSignature(Categories[6], Signatures[6]);
    } else if i == 7 {
      SlugSignature(Categories[7], Signatures[7]);
    } else if i == 8 {
      SlugSignature(Categories[8], Signatures[8]);
    } else if i == 9 {
      SlugSignature(Categories[9], Signatures[9]);
    } else if i == 10 {
      SlugSignature(Categories[10], Signatures[10]);
    } else {
      SlugSignature(Categories[11], Signatures[11]);
    }
  }

  lemma SignaturesDistinct()
    ensures forall i, j :: 0 <= i < j < |Signatures| ==> Signatures[i] != Signatures[j]
  {
  }

  lemma SlugsDistinct(i: nat, j: nat)
    requires i < j < |Categories|
    ensures Slug(Categories[i]) != Slug(Categories[j])
  {
    CategorySignature(i);
    CategorySignature(j);
    SignaturesDistinct();
  }

  /** Different passes of one gender never write the same file, and the two
      genders never share a file. */
  lemma FilenamesDistinct(g1: string, g2: string, i: int, j: int)
    requires g1 in Genders && g2 in Genders
    requires 0 <= i < |Categories| && 0 <= j < |Categories|
    requires g1 != g2 || i != j
    ensures Filename(g1, Categories[i]) != Filename(g2, Categories[j])
  {
    var f1 := Filename(g1, Categories[i]);
    var f2 := Filename(g2, Categories[j]);
    if g1 != g2 {
      assert f1[0] != f2[0];
    } else {
      if i < j { SlugsDistinct(i, j); } else { SlugsDistinct(j, i); }
      var s1 := Slug(Categories[i]);
      var s2 := Slug(Categories[j]);
      assert s1 == f1[|g1| + 1..|f1| - 4];
      assert s2 == f2[|g1| + 1..|f2| - 4];
    }
  }

  /** One row as `writer.writerow` receives it. */
  datatype Row = Row(name: string, age: int, weight: Option<int>, belt: Option<string>,
                     gender: string, category: string)

  datatype CsvFile = CsvFile(filename: string, rows: seq<Row>)

  function RowOf(a: ExportAthlete, today: Date): Row {
    Row(a.name, Age(a.dob, today), a.weight, a.belt, a.gender,
        ProfileCategory(ProfileOf(a), today).GetOr(Unknown))
  }

  function RowsOf(athletes: seq<ExportAthlete>, today: Date): (rows: seq<Row>)
    ensures |rows| == |athletes|
    ensures forall k :: 0 <= k < |athletes| ==> rows[k] == RowOf(athletes[k], today)
  {
    seq(|athletes|, k requires 0 <= k < |athletes| => RowOf(athletes[k], today))
  }

  /** One (gender, category) pass: no file when nothing is selected,
      otherwise one file whose every row carries the pass's category. */
  function ExportPass(gender: string, category: string, athletes: seq<ExportAthlete>, today: Date)
    : (r: Result<Option<CsvFile>, ComparisonError>)
    ensures r.Failure? <==> exists i :: 0 <= i < |athletes| && Raises(athletes[i], today)
    ensures r.Success? ==>
      (r.value.Some? <==> exists i :: 0 <= i < |athletes| && Selected(athletes[i], category, today))
    ensures r.Success? && r.value.Some? ==>
      && r.value.value.filename == Filename(gender, category)
      && |r.value.value.rows| > 0
      && (forall k :: 0 <= k < |r.value.value.rows| ==> r.value.value.rows[k].category == category)
      && (forall row :: row in r.value.value.rows <==>
            exists a :: a in athletes && Selected(a, category, today) && row == RowOf(a, today))
      && r.value.value.rows == RowsOf(Select(athletes, category, today).value, today)
  {
    match Select(athletes, category, today)
    case Failure(e) => Failure(e)
    case Success(chosen) =>
      assert forall i :: 0 <= i < |athletes| ==> athletes[i] in athletes;
      if |chosen| == 0 then Success(None)
      else
        var rows := RowsOf(chosen, today);
        assert chosen[0] in athletes;
        assert forall k :: 0 <= k < |chosen| ==> chosen[k] in chosen;
        Success(Some(CsvFile(Filename(gender, category), rows)))
  }

  /** `f` is the file of one of the passes `lo..` of `gender`. */
  ghost predicate WrittenBy(gender: string, f: CsvFile, lo: nat) {
    exists k :: lo <= k < |Categories| && f.filename == Filename(gender, Categories[k])
  }

  ghost predicate DistinctNames(files: seq<CsvFile>) {
    forall p, q :: 0 <= p < q < |files| ==> files[p].filename != files[q].filename
  }

  lemma DistinctNamesConcat(a: seq<CsvFile>, b: seq<CsvFile>)
    requires DistinctNames(a) && DistinctNames(b)
    requires forall x, y :: x in a && y in b ==> x.filename != y.filename
    ensures DistinctNames(a + b)
  {
    forall p, q | 0 <= p < q < |a + b|
      ensures (a + b)[p].filename != (a + b)[q].filename
    {
      if q >= |a| && p < |a| {
        assert (a + b)[p] in a && (a + b)[q] in b;
      }
    }
  }

  /** The files a run of the script leaves on disk, and what it raised. */
  datatype Run = Run(files: seq<CsvFile>, raised: Option<ComparisonError>)

  /** Pass `k` of `gender` did not raise, and its file, if any, is among
      `files`. */
  predicate PassWritten(gender: string, athletes: seq<ExportAthlete>, k: nat, today: Date, files: seq<CsvFile>)
    requires k < |Categories|
  {
    var pass := ExportPass(gender, Categories[k], athletes, today);
    pass.Success? && (pass.value.Some? ==> pass.value.value in files)
  }

  lemma PassWrittenGrows(gender: string, athletes: seq<ExportAthlete>, k: nat, today: Date,
                         a: seq<CsvFile>, b: seq<CsvFile>)
    requires k < |Categories|
    requires PassWritten(gender, athletes, k, today, a)
    requires forall f :: f in a ==> f in b
    ensures PassWritten(gender, athletes, k, today, b)
  {
  }

  /** `f` is the file one of the passes `lo..` of `gender` writes. */
  ghost predicate FromPass(gender: string, athletes: seq<ExportAthlete>, today: Date, f: CsvFile, lo: nat) {
    exists k :: lo <= k < |Categories| && ExportPass(gender, Categories[k], athletes, today) == Success(Some(f))
  }

  lemma FromPassWiden(gender: string, athletes: seq<ExportAthlete>, today: Date, f: CsvFile, lo: nat)
    requires FromPass(gender, athletes, today, f, lo + 1)
    ensures FromPass(gender, athletes, today, f, lo)
  {
    var k :| lo + 1 <= k < |Categories| && ExportPass(gender, Categories[k], athletes, today) == Success(Some(f));
  }

  /** `r` is the run from some pass on, given that pass's outcome `pass`
      and the run `rest` of the later passes: a raising pass ends the run,
      an empty one adds nothing, and a file is written before the later
      passes' files. */
  ghost predicate StepsTo(pass: Result<Option<CsvFile>, ComparisonError>, rest: Run, r: Run) {
    && (pass.Failure? ==> r == Run([], Some(pass.error)))
    && (pass.Success? && pass.value.None? ==> r == rest)
    && (pass.Success? && pass.value.Some? ==> r == Run([pass.value.value] + rest.files, rest.raised))
  }

  /** A pass that does not raise keeps every later pass written. */
  lemma WritesPassesExtend(gender: string, athletes: seq<ExportAthlete>, i: nat, today: Date,
                           pass: Result<Option<CsvFile>, ComparisonError>, rest: Run, r: Run)
    requires i < |Categories|
    requires pass == ExportPass(gender, Categories[i], athletes, today)
    requires StepsTo(pass, rest, r)
    requires rest.raised.None? ==>
      forall k :: i + 1 <= k < |Categories| ==> PassWritten(gender, athletes, k, today, rest.files)
    ensures r.raised.None? ==>
      forall k :: i <= k < |Categories| ==> PassWritten(gender, athletes, k, today, r.files)
  {
    if r.raised.None? {
      assert forall f :: f in rest.files ==> f in r.files;
      forall k | i < k < |Categories|
        ensures PassWritten(gender, athletes, k, today, r.files)
      {
        PassWrittenGrows(gender, athletes, k, today, rest.files, r.files);
      }
    }
  }

  /** A pass adds at most its own file to the later passes' files. */
  lemma OnlyPassesExtend(gender: string, athletes: seq<ExportAthlete>, i: nat, today: Date,
                         pass: Result<Option<CsvFile>, ComparisonError>, rest: Run, r: Run)
    requires i < |Categories|
    requires pass == ExportPass(gender, Categories[i], athletes, today)
    requires StepsTo(pass, rest, r)
    requires forall f :: f in rest.files ==> FromPass(gender, athletes, today, f, i + 1)
    ensures forall f :: f in r.files ==> FromPass(gender, athletes, today, f, i)
  {
    forall f | f in r.files
      ensures FromPass(gender, athletes, today, f, i)
    {
      if f in rest.files {
        FromPassWiden(gender, athletes, today, f, i);
      } else {
        assert pass == Success(Some(f));
      }
    }
  }

  /** The passes of one gender from category index `i` on, in list order.
      Whether a pass raises does not depend on its category, so a raising
      gender raises in its first pass, before writing any of its files.
      A run that does not raise has run every pass and holds the file of
      each that selected someone; every file it holds is one pass's file. */
  function ExportGender(gender: string, athletes: seq<ExportAthlete>, i: nat, today: Date) : (r: Run)
    requires gender in Genders
    requires i <= |Categories|
    ensures forall f :: f in r.files ==> WrittenBy(gender, f, i)
    ensures DistinctNames(r.files)
    ensures i < |Categories| ==>
      (r.raised.Some? <==> exists k :: 0 <= k < |athletes| && Raises(athletes[k], today))
    ensures r.raised.Some? ==> r.files == []
    ensures r.raised.None? ==>
      forall k :: i <= k < |Categories| ==> PassWritten(gender, athletes, k, today, r.files)
    ensures forall f :: f in r.files ==> FromPass(gender, athletes, today, f, i)
    decreases |Categories| - i
  {
    if i == |Categories| then Run([], None)
    else
      var pass := ExportPass(gender, Categories[i], athletes, today);
      if pass.Failure? then Run([], Some(pass.error))
      else
        var rest := ExportGender(gender, athletes, i + 1, today);
        var r :=
          if pass.value.None? then rest
          else (
            var file := pass.value.value;
            assert forall f :: f in rest.files ==> f.filename != file.filename by {
              forall f | f in rest.files
                ensures f.filename != file.filename
              {
                var k :| i + 1 <= k < |Categories| && f.filename == Filename(gender, Categories[k]);
                FilenamesDistinct(gender, gender, i, k);
              }
            }
            DistinctNamesConcat([file], rest.files);
            Run([file] + rest.files, rest.raised));
        WritesPassesExtend(gender, athletes, i, today, pass, rest, r);
        OnlyPassesExtend(gender, athletes, i, today, pass, rest, r);
        r
  }

  /** The men's files and the women's files never share a name. */
  lemma GendersApart(m: seq<CsvFile>, f: seq<CsvFile>)
    requires forall x :: x in m ==> WrittenBy("male", x, 0)
    requires forall y :: y in f ==> WrittenBy("female", y, 0)
    requires DistinctNames(m) && DistinctNames(f)
    ensures DistinctNames(m + f)
  {
    assert forall x, y :: x in m && y in f ==> x.filename != y.filename by {
      forall x, y | x in m && y in f
        ensures x.filename != y.filename
      {
        var k1 :| 0 <= k1 < |Categories| && x.filename == Filename("male", Categories[k1]);
        var k2 :| 0 <= k2 < |Categories| && y.filename == Filename("female", Categories[k2]);
        FilenamesDistinct("male", "female", k1, k2);
      }
    }
    DistinctNamesConcat(m, f);
  }

  /** `generate_csv()`: both genders, each over all twelve categories, and
      no two of the files it writes share a name. `males` and `females` are
      the rows the per-gender query returns. A raise while selecting the
      women stops the script with the men's files already written. */
  function GenerateCsv(males: seq<ExportAthlete>, females: seq<ExportAthlete>, today: Date) : (r: Run)
    ensures forall p, q :: 0 <= p < q < |r.files| ==> r.files[p].filename != r.files[q].filename
    ensures r.raised.Some? <==>
      (exists k :: 0 <= k < |males| && Raises(males[k], today)) ||
      (exists k :: 0 <= k < |females| && Raises(females[k], today))
    ensures (exists k :: 0 <= k < |males| && Raises(males[k], today)) ==> r.files == []
    ensures ExportGender("male", males, 0, today).files <= r.files
    ensures ExportGender("male", males, 0, today).raised.None? ==>
      r.files == ExportGender("male", males, 0, today).files + ExportGender("female", females, 0, today).files
    ensures ExportGender("male", males, 0, today).raised.None? ==>
      r.raised == ExportGender("female", females, 0, today).raised
    ensures r.raised.None? ==> forall k :: 0 <= k < |Categories| ==>
      PassWritten("male", males, k, today, r.files) && PassWritten("female", females, k, today, r.files)
    ensures forall f :: f in r.files ==>
      FromPass("male", males, today, f, 0) || FromPass("female", females, today, f, 0)
  {
    var m := ExportGender("male", males, 0, today);
    if m.raised.Some? then m
    else
      var f := ExportGender("female", females, 0, today);
      GendersApart(m.files, f.files);
      var r := Run(m.files + f.files, f.raised);
      assert forall x :: x in m.files ==> x in r.files;
      assert forall x :: x in f.files ==> x in r.files;
      assert r.raised.None? ==> forall k :: 0 <= k < |Categories| ==>
        PassWritten("male", males, k, today, r.files) && PassWritten("female", females, k, today, r.files) by {
        if r.raised.None? {
          forall k | 0 <= k < |Categories|
            ensures PassWritten("male", males, k, today, r.files) && PassWritten("female", females, k, today, r.files)
          {
            PassWrittenGrows("male", males, k, today, m.files, r.files);
            PassWrittenGrows("female", females, k, today, f.files, r.files);
          }
        }
      }
      r
  }
}

=== FILE: form_fill.dfy ===
/** The field rules of the two fill tasks. A PDF template is its pages'
    annotation lists; every named annotation takes the data value stored
    under its name without the enclosing parentheses. A Word document is its
    paragraphs' and table cells' texts; each text gets the sequential
    replace of every key by its value. Reading and writing files is not
    modelled. */
module FormFill {
  import opened Wrappers
  import opened Text
  import opened Dicts

  /** A form annotation: its `/T` name as written in the file (a PDF string
      with its parentheses) and its `/V` value. */
  datatype Annot<V> = Annot(name: Option<string>, value: Option<V>)

  /** A page and its `/Annots` array, when it has one. */
  datatype Page<V> = Page(annots: Option<seq<Annot<V>>>)

  /** `field_name[1:-1]`: the name without its first and last character. */
  function StripEnds(s: string): (r: string)
    ensures |s| >= 2 ==> s == [s[0]] + r + [s[|s| - 1]]
    ensures |s| < 2 ==> r == ""
  {
    if |s| >= 2 then s[1..|s| - 1] else ""
  }

  /** `if field_name:` — the annotation has a non-empty `/T`. */
  predicate Named<V>(a: Annot<V>) {
    a.name.Some? && a.name.value != ""
  }

  /** The data key an annotation is filled from. */
  function FieldKey<V>(a: Annot<V>): string
    requires Named(a)
  {
    StripEnds(a.name.value)
  }

  function FillAnnot<V>(a: Annot<V>, data: Dict<V>, blank: V): Annot<V> {
    if Named(a) then a.(value := Some(GetOr(data, FieldKey(a), blank))) else a
  }

  function FillPage<V>(p: Page<V>, data: Dict<V>, blank: V): Page<V> {
    match p.annots
    case None => p
    case Some(annots) => Page(Some(seq(|annots|, i requires 0 <= i < |annots| => FillAnnot(annots[i], data, blank))))
  }

  /** `fill_pdf_form_task` on the page list, `blank` standing for the
      default `''`: the pages come out in order, each annotation keeps its
      name, a named one holds the value stored under its key or `blank`,
      and an unnamed one is untouched. */
  function FillPdf<V>(pages: seq<Page<V>>, data: Dict<V>, blank: V): (r: seq<Page<V>>)
    ensures |r| == |pages|
    ensures forall i :: 0 <= i < |pages| ==> (r[i].annots.None? <==> pages[i].annots.None?)
    ensures forall i :: 0 <= i < |pages| && pages[i].annots.Some? ==>
      |r[i].annots.value| == |pages[i].annots.value|
    ensures forall i, j :: 0 <= i < |pages| && pages[i].annots.Some? && 0 <= j < |pages[i].annots.value| ==>
      var a, b := pages[i].annots.value[j], r[i].annots.value[j];
      b.name == a.name &&
      (Named(a) ==> b.value == Some(GetOr(data, FieldKey(a), blank))) &&
      (!Named(a) ==> b == a)
  {
    seq(|pages|, i requires 0 <= i < |pages| => FillPage(pages[i], data, blank))
  }

  /** The keys the template's named annotations are filled from. */
  predicate NamesField<V>(pages: seq<Page<V>>, k: string) {
    exists i, j :: 0 <= i < |pages| && pages[i].annots.Some? && 0 <= j < |pages[i].annots.value| &&
      Named(pages[i].annots.value[j]) && FieldKey(pages[i].annots.value[j]) == k
  }

  /** A data entry whose key names no field has no effect on the result. */
  lemma FillPdfIgnoresUnusedKey<V>(pages: seq<Page<V>>, data: Dict<V>, k: string, x: V, blank: V)
    requires !NamesField(pages, k)
    ensures FillPdf(pages, Put(data, k, x), blank) == FillPdf(pages, data, blank)
  {
    var r1, r2 := FillPdf(pages, Put(data, k, x), blank), FillPdf(pages, data, blank);
    forall i | 0 <= i < |pages|
      ensures r1[i] == r2[i]
    {
      if pages[i].annots.Some? {
        var annots := pages[i].annots.value;
        forall j | 0 <= j < |annots|
          ensures FillAnnot(annots[j], Put(data, k, x), blank) == FillAnnot(annots[j], data, blank)
        {
          if Named(annots[j]) {
            assert FieldKey(annots[j]) != k;
          }
        }
        var s1 := seq(|annots|, j requires 0 <= j < |annots| => FillAnnot(annots[j], Put(data, k, x), blank));
        var s2 := seq(|annots|, j requires 0 <= j < |annots| => FillAnnot(annots[j], data, blank));
        assert s1 == s2;
      }
    }
  }

  /** Filling a filled template again changes nothing. */
  lemma FillPdfIdempotent<V>(pages: seq<Page<V>>, data: Dict<V>, blank: V)
    ensures FillPdf(FillPdf(pages, data, blank), data, blank) == FillPdf(pages, data, blank)
  {
    var once := FillPdf(pages, data, blank);
    forall i | 0 <= i < |pages|
      ensures FillPage(once[i], data, blank) == once[i]
    {
      if pages[i].annots.Some? {
        var annots := once[i].annots.value;
        forall j | 0 <= j < |annots|
          ensures FillAnnot(annots[j], data, blank) == annots[j]
        {
        }
        var again := seq(|annots|, j requires 0 <= j < |annots| => FillAnnot(annots[j], data, blank));
        assert again == annots;
      }
    }
  }

  // ---------------------------------------------------------------------
  // Word documents
  // ---------------------------------------------------------------------

  /** The inner loop of `fill_word_form_task` on one text: for each item in
      order, `if key in text: text = text.replace(key, value)`. */
  function FillText(text: string, data: Dict<string>): string
    decreases |data|
  {
    if |data| == 0 then text
    else
      var k, v := data[0].0, data[0].1;
      FillText(if Contains(text, k) then Replace(text, k, v) else text, data[1..])
  }

  /** The same loop without the membership test. */
  function ReplaceAll(text: string, data: Dict<string>): string
    decreases |data|
  {
    if |data| == 0 then text
    else ReplaceAll(Replace(text, data[0].0, data[0].1), data[1..])
  }

  /** The membership test is redundant: replacing a key that does not occur
      changes nothing. */
  lemma {:induction false} FillTextIsReplaceAll(text: string, data: Dict<string>)
    ensures FillText(text, data) == ReplaceAll(text, data)
    decreases |data|
  {
    if |data| > 0 {
      var k, v := data[0].0, data[0].1;
      if !Contains(text, k) {
        ReplaceAbsent(text, k, v);
      }
      FillTextIsReplaceAll(if Contains(text, k) then Replace(text, k, v) else text, data[1..]);
    }
  }

  /** A text containing none of the keys comes out unchanged. */
  lemma {:induction false} FillTextNoKeys(text: string, data: Dict<string>)
    requires forall i :: 0 <= i < |data| ==> !Contains(text, data[i].0)
    ensures FillText(text, data) == text
    decreases |data|
  {
    if |data| > 0 {
      assert !Contains(text, data[0].0);
      forall i | 0 <= i < |data[1..]|
        ensures !Contains(text, data[1..][i].0)
      {
        assert data[1..][i] == data[i + 1];
      }
      FillTextNoKeys(text, data[1..]);
    }
  }

  /** A document's texts: its paragraphs, and its tables as rows of cells. */
  datatype Doc = Doc(paragraphs: seq<string>, tables: seq<seq<seq<string>>>)

  function FillRow(row: seq<string>, data: Dict<string>): seq<string> {
    seq(|row|, c requires 0 <= c < |row| => FillText(row[c], data))
  }

  function FillTable(table: seq<seq<string>>, data: Dict<string>): seq<seq<string>> {
    seq(|table|, r requires 0 <= r < |table| => FillRow(table[r], data))
  }

  /** `fill_word_form_task` on the document's texts: paragraphs and cells
      keep their number and place and each gets the same text rule. */
  function FillDoc(doc: Doc, data: Dict<string>): (r: Doc)
    ensures |r.paragraphs| == |doc.paragraphs| && |r.tables| == |doc.tables|
    ensures forall p :: 0 <= p < |doc.paragraphs| ==> r.paragraphs[p] == FillText(doc.paragraphs[p], data)
    ensures forall t :: 0 <= t < |doc.tables| ==> |r.tables[t]| == |doc.tables[t]|
    ensures forall t, w :: 0 <= t < |doc.tables| && 0 <= w < |doc.tables[t]| ==>
      |r.tables[t][w]| == |doc.tables[t][w]|
    ensures forall t, w, c :: 0 <= t < |doc.tables| && 0 <= w < |doc.tables[t]| && 0 <= c < |doc.tables[t][w]| ==>
      r.tables[t][w][c] == FillText(doc.tables[t][w][c], data)
  {
    Doc(seq(|doc.paragraphs|, p requires 0 <= p < |doc.paragraphs| => FillText(doc.paragraphs[p], data)),
        seq(|doc.tables|, t requires 0 <= t < |doc.tables| => FillTable(doc.tables[t], data)))
  }

  /** Every text of the document. */
  predicate TextOf(doc: Doc, s: string) {
    (exists p :: 0 <= p < |doc.paragraphs| && doc.paragraphs[p] == s) ||
    (exists t, w, c :: 0 <= t < |doc.tables| && 0 <= w < |doc.tables[t]| && 0 <= c < |doc.tables[t][w]| &&
      doc.tables[t][w][c] == s)
  }

  /** A document in which no text contains a key comes out unchanged. */
  lemma FillDocNoKeys(doc: Doc, data: Dict<string>)
    requires forall s, i :: TextOf(doc, s) && 0 <= i < |data| ==> !Contains(s, data[i].0)
    ensures FillDoc(doc, data) == doc
  {
    var r := FillDoc(doc, data);
    forall p | 0 <= p < |doc.paragraphs|
      ensures r.paragraphs[p] == doc.paragraphs[p]
    {
      assert TextOf(doc, doc.paragraphs[p]);
      FillTextNoKeys(doc.paragraphs[p], data);
    }
    forall t | 0 <= t < |doc.tables|
      ensures r.tables[t] == doc.tables[t]
    {
      forall w | 0 <= w < |doc.tables[t]|
        ensures r.tables[t][w] == doc.tables[t][w]
      {
        forall c | 0 <= c < |doc.tables[t][w]|
          ensures r.tables[t][w][c] == doc.tables[t][w][c]
        {
          assert TextOf(doc, doc.tables[t][w][c]);
          FillTextNoKeys(doc.tables[t][w][c], data);
        }
      }
    }
  }
}

=== FILE: forms.dfy ===
/** The decision logic inside the forms: `CoachForm.clean` of the `main1`
    app, the category filters of the team and association forms, the
    role-dependent widgets of the `main` registration form, and the
    athlete/coach upsert of `AthleteCoachForm.save`. */
module Forms {
  import opened Wrappers
  import opened Dates
  import Models

  // ---------------------------------------------------------------------
  // CoachForm.clean
  // ---------------------------------------------------------------------

  /** The cleaned values `clean` looks at. A weight is in hundredths of a
      kilogram; a category is the list of chosen category ids. A field that
      `add_error` removed reads back as None, as `cleaned_data.get` does. */
  datatype CoachData = CoachData(isAthlete: bool, weight: Option<int>, category: Option<seq<nat>>)

  datatype CoachField = WeightField | CategoryField

  datatype Cleaned = Cleaned(data: CoachData, errors: set<CoachField>)

  /** Python truthiness of the weight: None and 0.00 are false. */
  predicate WeightGiven(w: Option<int>) {
    w.Some? && w.value != 0
  }

  /** Python truthiness of the category selection: None and an empty
      selection are false. */
  predicate CategoryGiven(c: Option<seq<nat>>) {
    c.Some? && |c.value| > 0
  }

  /** What a clean result promises the view: a coach who also competes has
      a weight and a category; a coach who does not has neither. */
  predicate AthleteFieldsConsistent(d: CoachData) {
    if d.isAthlete then WeightGiven(d.weight) && CategoryGiven(d.category)
    else d.weight.None? && d.category.None?
  }

  /** `CoachForm.clean`: an athlete-coach needs a weight and a category (both
      errors can be raised together, and each removes its field); any other
      coach has both fields cleared. */
  function CleanCoach(d: CoachData): (r: Cleaned)
    ensures r.data.isAthlete == d.isAthlete
    ensures !d.isAthlete ==> r.errors == {} && r.data.weight.None? && r.data.category.None?
    ensures d.isAthlete ==> (WeightField in r.errors <==> !WeightGiven(d.weight))
    ensures d.isAthlete ==> (CategoryField in r.errors <==> !CategoryGiven(d.category))
    ensures WeightField !in r.errors && d.isAthlete ==> r.data.weight == d.weight
    ensures CategoryField !in r.errors && d.isAthlete ==> r.data.category == d.category
    ensures r.errors == {} <==> AthleteFieldsConsistent(r.data)
    ensures d.isAthlete && r.errors == {} ==> r.data == d
  {
    if d.isAthlete then
      var weightError := if WeightGiven(d.weight) then {} else {WeightField};
      var categoryError := if CategoryGiven(d.category) then {} else {CategoryField};
      Cleaned(d.(weight := if weightError == {} then d.weight else None,
                 category := if categoryError == {} then d.category else None),
              weightError + categoryError)
    else
      Cleaned(d.(weight := None, category := None), {})
  }

  /** Cleaning what `clean` returned reports the same errors and the same
      data again. */
  lemma CleanCoachIdempotent(d: CoachData)
    ensures CleanCoach(CleanCoach(d).data) == CleanCoach(d)
  {
  }

  // ---------------------------------------------------------------------
  // Category filters of the team and association forms
  // ---------------------------------------------------------------------

  /** The names `TeamForm` filters the category choices to (both apps). */
  const TeamCategories: set<string> := {"team_form", "team_sparring", "team_special_technique"}

  /** The names `AthleteCategoryAssociationForm` filters to. */
  const IndividualCategories: set<string> := {"individual_form", "sparring", "special_technique"}

  /** `Category.objects.filter(name__in=names)`: the stored categories whose
      name is listed. */
  function FilterByName(existing: set<string>, names: set<string>): (r: set<string>)
    ensures forall c :: c in r <==> c in existing && c in names
  {
    existing * names
  }

  function TeamChoices(existing: set<string>): (r: set<string>)
    ensures r <= TeamCategories && r <= existing
  {
    FilterByName(existing, TeamCategories)
  }

  function IndividualChoices(existing: set<string>): (r: set<string>)
    ensures r <= IndividualCategories && r <= existing
  {
    FilterByName(existing, IndividualCategories)
  }

  /** A category is a team category exactly when its stored name starts
      with "team_". */
  predicate IsTeamName(c: string) {
    |c| >= 5 && c[..5] == "team_"
  }

  /** The two filters split the six category choices: disjoint, together
      all of them, and the team side is the "team_" half. */
  lemma CategoryPartition()
    ensures TeamCategories * IndividualCategories == {}
    ensures TeamCategories + IndividualCategories == Models.ChoiceValues()
    ensures forall c :: c in Models.ChoiceValues() ==> (c in TeamCategories <==> IsTeamName(c))
  {
    ChoiceValuesSplit();
    TeamNamesArePrefixed();
  }

  lemma ChoiceValuesSplit()
    ensures Models.ChoiceValues() == TeamCategories + IndividualCategories
  {
    assert Models.CategoryChoices[0].0 == "individual_form";
    assert Models.CategoryChoices[1].0 == "team_form";
    assert Models.CategoryChoices[2].0 == "sparring";
    assert Models.CategoryChoices[3].0 == "team_sparring";
    assert Models.CategoryChoices[4].0 == "special_technique";
    assert Models.CategoryChoices[5].0 == "team_special_technique";
  }

  lemma TeamNamesArePrefixed()
    ensures forall c :: c in TeamCategories ==> IsTeamName(c)
    ensures forall c :: c in IndividualCategories ==> !IsTeamName(c)
  {
    assert "team_form"[..5] == "team_";
    assert "team_sparring"[..5] == "team_";
    assert "team_special_technique"[..5] == "team_";
    assert !IsTeamName("individual_form") by { assert "individual_form"[..5][0] == 'i'; }
    assert !IsTeamName("special_technique") by { assert "special_technique"[..5][0] == 's'; }
    assert !IsTeamName("sparring") by { assert "sparring"[..5][0] == 's'; }
  }

  /** Over any stored subset of the six choices, each category is offered
      by exactly one of the two forms. */
  lemma ChoicesSplitStoredCategories(existing: set<string>)
    requires existing <= Models.ChoiceValues()
    ensures TeamChoices(existing) * IndividualChoices(existing) == {}
    ensures TeamChoices(existing) + IndividualChoices(existing) == existing
  {
    CategoryPartition();
  }

  // ---------------------------------------------------------------------
  // UserRegistrationForm widgets (main app)
  // ---------------------------------------------------------------------

  datatype Widget = Hidden | Select | TextInput

  /** The three role-specific fields of the form. */
  datatype RoleField = Level | StaffRole | MediaHouse

  datatype Widgets = Widgets(level: Widget, staffRole: Widget, mediaHouse: Widget) {
    function Of(f: RoleField): Widget {
      match f
      case Level => level
      case StaffRole => staffRole
      case MediaHouse => mediaHouse
    }
  }

  /** The role each role-specific field belongs to. */
  function RoleOf(f: RoleField): string {
    match f
    case Level => "coach"
    case StaffRole => "staff"
    case MediaHouse => "media"
  }

  /** `UserRegistrationForm.__init__`: every role-specific field starts
      hidden; a submitted role of 'coach', 'staff' or 'media' shows its own
      field. `role` is None when the submitted data has no 'role'. */
  function RoleWidgets(role: Option<string>): (r: Widgets)
    ensures forall f :: r.Of(f) != Hidden <==> role == Some(RoleOf(f))
    ensures r.level in {Hidden, Select} && r.staffRole in {Hidden, Select}
    ensures r.mediaHouse in {Hidden, TextInput}
  {
    var hidden := Widgets(Hidden, Hidden, Hidden);
    match role
    case None => hidden
    case Some(x) =>
      if x == "athlete" then hidden
      else if x == "coach" then hidden.(level := Select)
      else if x == "staff" then hidden.(staffRole := Select)
      else if x == "media" then hidden.(mediaHouse := TextInput)
      else hidden
  }

  /** At most one role-specific field is shown, and none for a missing,
      athlete or unrecognised role. */
  lemma AtMostOneShown(role: Option<string>, f: RoleField, g: RoleField)
    requires RoleWidgets(role).Of(f) != Hidden && RoleWidgets(role).Of(g) != Hidden
    ensures f == g
  {
  }

  lemma NoneShownOtherwise(role: Option<string>)
    requires role !in {Some("coach"), Some("staff"), Some("media")}
    ensures RoleWidgets(role) == Widgets(Hidden, Hidden, Hidden)
  {
  }

  // ---------------------------------------------------------------------
  // AthleteCoachForm.save (main app)
  // ---------------------------------------------------------------------

  /** The columns the form writes to both an athlete and a coach. Country
      and belt are foreign keys (belt optional); the photo is its path. */
  datatype Common = Common(
    name: string, photo: string, country: nat, dob: Date, gender: string,
    belt: Option<nat>, contacts: string, arrival: Date, departure: Date,
    accommodation: string)

  /** Columns the form never writes (email, passport, categories, ...), by
      column name. */
  type Rest = map<string, string>

  datatype AthleteRow = AthleteRow(common: Common, weight: Option<int>, coach: Option<string>, rest: Rest)

  datatype CoachRow = CoachRow(common: Common, region: string, level: string, rest: Rest)

  /** Athletes and coaches by identity number. */
  datatype People = People(athletes: map<string, AthleteRow>, coaches: map<string, CoachRow>)

  datatype PersonForm = PersonForm(
    idNumber: string, common: Common, weight: Option<int>, region: string,
    coachLevel: string, isAthlete: bool, isCoach: bool)

  /** The athlete `save` leaves behind: the stored row (or a new one with
      the given defaults) with the form's values, and a coach link to the
      coach saved by the same form, or none. */
  function SavedAthlete(athletes: map<string, AthleteRow>, f: PersonForm, defaults: Rest): AthleteRow {
    var rest := if f.idNumber in athletes then athletes[f.idNumber].rest else defaults;
    AthleteRow(f.common, f.weight, if f.isCoach then Some(f.idNumber) else None, rest)
  }

  function SavedCoach(coaches: map<string, CoachRow>, f: PersonForm, defaults: Rest): CoachRow {
    var rest := if f.idNumber in coaches then coaches[f.idNumber].rest else defaults;
    CoachRow(f.common, f.region, f.coachLevel, rest)
  }

  /** `AthleteCoachForm.save` as evidently intended: get-or-create the
      athlete (if `is_athlete`) and the coach (if `is_coach`) under the
      form's identity number (the coach's `id_number` column), overwrite the
      form's columns, and link the athlete to the coach. */
  function SavePerson(p: People, f: PersonForm, freshAthlete: Rest, freshCoach: Rest): (r: People)
    ensures !f.isAthlete && !f.isCoach ==> r == p
    ensures !f.isAthlete ==> r.athletes == p.athletes
    ensures !f.isCoach ==> r.coaches == p.coaches
    ensures r.athletes.Keys == p.athletes.Keys + (if f.isAthlete then {f.idNumber} else {})
    ensures r.coaches.Keys == p.coaches.Keys + (if f.isCoach then {f.idNumber} else {})
    ensures forall k :: k in p.athletes && k != f.idNumber ==> r.athletes[k] == p.athletes[k]
    ensures forall k :: k in p.coaches && k != f.idNumber ==> r.coaches[k] == p.coaches[k]
    ensures f.isAthlete ==>
      var a := r.athletes[f.idNumber];
      a.common == f.common && a.weight == f.weight
      && (f.isCoach ==> a.coach == Some(f.idNumber) && a.coach.value in r.coaches)
      && (!f.isCoach ==> a.coach.None?)
      && (f.idNumber in p.athletes ==> a.rest == p.athletes[f.idNumber].rest)
    ensures f.isCoach ==>
      var c := r.coaches[f.idNumber];
      c.common == f.common && c.region == f.region && c.level == f.coachLevel
      && (f.idNumber in p.coaches ==> c.rest == p.coaches[f.idNumber].rest)
  {
    var athletes := if f.isAthlete then p.athletes[f.idNumber := SavedAthlete(p.athletes, f, freshAthlete)]
                    else p.athletes;
    var coaches := if f.isCoach then p.coaches[f.idNumber := SavedCoach(p.coaches, f, freshCoach)]
                   else p.coaches;
    People(athletes, coaches)
  }

  /** Saving the same form twice leaves what saving it once left. */
  lemma SavePersonTwice(p: People, f: PersonForm, freshAthlete: Rest, freshCoach: Rest)
    ensures var once := SavePerson(p, f, freshAthlete, freshCoach);
      SavePerson(once, f, freshAthlete, freshCoach) == once
  {
    var once := SavePerson(p, f, freshAthlete, freshCoach);
    var twice := SavePerson(once, f, freshAthlete, freshCoach);
    assert twice.athletes == once.athletes;
    assert twice.coaches == once.coaches;
  }

  /** What the written `save` can raise: `FieldError` for a query on a
      column the model does not have, `IntegrityError` for a row the
      database refuses because a NOT NULL column is empty. */
  datatype QueryError = FieldError | IntegrityError

  /** The stores `save` leaves behind, and what it raised. */
  datatype SaveOutcome = SaveOutcome(people: People, raised: Option<QueryError>)

  /** The athlete branch cannot store the row: a new identity number is
      created from defaults that omit the NOT NULL passport issue and
      expiry dates (main/models.py:178,180), and an existing athlete is
      saved with the form's belt, which may be empty although the column
      is NOT NULL (main/models.py:184). */
  predicate AthleteRefused(athletes: map<string, AthleteRow>, f: PersonForm) {
    f.isAthlete && (f.idNumber !in athletes || f.common.belt.None?)
  }

  /** The stored athlete as the athlete branch updates it: the form's
      columns, the stored coach link kept, and the link cleared when the
      form is not for a coach. */
  function SavedAthleteAsWritten(athletes: map<string, AthleteRow>, f: PersonForm): AthleteRow
    requires f.idNumber in athletes
  {
    var stored := athletes[f.idNumber];
    AthleteRow(f.common, f.weight, if f.isCoach then stored.coach else None, stored.rest)
  }

  /** `AthleteCoachForm.save` as written. The athlete branch raises
      `IntegrityError`, storing nothing, for a new identity number or an
      empty belt. Otherwise it updates the stored athlete, and then the
      coach branch looks the coach up by `id_passport_number`, a column the
      `main` app's `Coach` lacks, and raises `FieldError`. */
  function SavePersonAsWritten(p: People, f: PersonForm, freshAthlete: Rest, freshCoach: Rest): (r: SaveOutcome)
    ensures r.raised == Some(IntegrityError) <==> AthleteRefused(p.athletes, f)
    ensures r.raised == Some(FieldError) <==> !AthleteRefused(p.athletes, f) && f.isCoach
    ensures r.raised.None? <==> !AthleteRefused(p.athletes, f) && !f.isCoach
    ensures r.people.coaches == p.coaches
    ensures r.people.athletes.Keys == p.athletes.Keys
    ensures !f.isAthlete || AthleteRefused(p.athletes, f) ==> r.people.athletes == p.athletes
    ensures f.isAthlete && !AthleteRefused(p.athletes, f) ==>
      r.people.athletes[f.idNumber].common == f.common &&
      r.people.athletes[f.idNumber].weight == f.weight &&
      r.people.athletes[f.idNumber].coach == (if f.isCoach then p.athletes[f.idNumber].coach else None) &&
      r.people.athletes[f.idNumber].rest == p.athletes[f.idNumber].rest &&
      (forall k :: k in p.athletes && k != f.idNumber ==> r.people.athletes[k] == p.athletes[k])
  {
    if AthleteRefused(p.athletes, f) then SaveOutcome(p, Some(IntegrityError))
    else
      var athletes := if f.isAthlete then p.athletes[f.idNumber := SavedAthleteAsWritten(p.athletes, f)]
                      else p.athletes;
      SaveOutcome(People(athletes, p.coaches), if f.isCoach then Some(FieldError) else None)
  }

  /** The written and intended saves agree exactly on the forms the written
      one completes: neither for a coach nor refused in the athlete branch.
      A refused athlete form stores nothing where the intended save stores
      the athlete; a coach form raises and stores no new coach where the
      intended save stores it. */
  lemma SavePersonAsWrittenDiffers(p: People, f: PersonForm, freshAthlete: Rest, freshCoach: Rest)
    ensures !f.isCoach && !AthleteRefused(p.athletes, f) ==>
      SavePersonAsWritten(p, f, freshAthlete, freshCoach) == SaveOutcome(SavePerson(p, f, freshAthlete, freshCoach), None)
    ensures AthleteRefused(p.athletes, f) ==>
      SavePersonAsWritten(p, f, freshAthlete, freshCoach) == SaveOutcome(p, Some(IntegrityError)) &&
      f.idNumber in SavePerson(p, f, freshAthlete, freshCoach).athletes
    ensures f.isCoach ==>
      SavePersonAsWritten(p, f, freshAthlete, freshCoach).raised.Some? &&
      f.idNumber in SavePerson(p, f, freshAthlete, freshCoach).coaches &&
      (f.idNumber !in p.coaches ==> f.idNumber !in SavePersonAsWritten(p, f, freshAthlete, freshCoach).people.coaches)
  {
    if !f.isCoach && f.isAthlete && !AthleteRefused(p.athletes, f) {
      var a := SavePersonAsWritten(p, f, freshAthlete, freshCoach).people.athletes;
      var b := SavePerson(p, f, freshAthlete, freshCoach).athletes;
      assert a[f.idNumber] == b[f.idNumber];
    }
  }

  /** The most common input, a first-time athlete, is refused as written. */
  lemma NewAthleteRefusedAsWritten(p: People, f: PersonForm, freshAthlete: Rest, freshCoach: Rest)
    requires f.isAthlete && f.idNumber !in p.athletes
    ensures SavePersonAsWritten(p, f, freshAthlete, freshCoach) == SaveOutcome(p, Some(IntegrityError))
    ensures SavePerson(p, f, freshAthlete, freshCoach).athletes[f.idNumber].common == f.common
  {
  }
}

=== FILE: models.dfy ===
/** Small pure members of the model classes: the tournament edition's
    ordinal suffix, the custom `User`'s photo folder, and the six category
    choices both apps declare. */
module Models {

  /** `Tournament.get_ordinal_suffix`: 'th' for 10 to 20 modulo 100,
      otherwise by the last digit. Python's `%` by a positive modulus agrees
      with Dafny's for every integer. */
  function OrdinalSuffix(n: int): (r: string)
    ensures r == "st" <==> n % 10 == 1 && n % 100 != 11
    ensures r == "nd" <==> n % 10 == 2 && n % 100 != 12
    ensures r == "rd" <==> n % 10 == 3 && n % 100 != 13
    ensures r != "st" && r != "nd" && r != "rd" ==> r == "th"
  {
    if 10 <= n % 100 <= 20 then "th"
    else if n % 10 == 1 then "st"
    else if n % 10 == 2 then "nd"
    else if n % 10 == 3 then "rd"
    else "th"
  }

  /** Euclidean division by 10 is determined by any decomposition with a
      remainder in range. */
  lemma ModTenOf(n: int, q: int, r: int)
    requires n == 10 * q + r && 0 <= r < 10
    ensures n % 10 == r
  {
  }

  lemma ModHundredOf(n: int, q: int, r: int)
    requires n == 100 * q + r && 0 <= r < 100
    ensures n % 100 == r
  {
  }

  /** The suffix depends only on the last two digits. */
  lemma OrdinalSuffixPeriodic(n: int)
    ensures OrdinalSuffix(n) == OrdinalSuffix(n % 100)
    ensures OrdinalSuffix(n) == OrdinalSuffix(n + 100)
  {
    var q, r := n / 100, n % 100;
    var t, u := r / 10, r % 10;
    assert r == 10 * t + u;
    ModTenOf(n, 10 * q + t, u);
    ModHundredOf(r, 0, r);
    ModTenOf(r, t, u);
    ModHundredOf(n + 100, q + 1, r);
    ModTenOf(n + 100, 10 * q + 10 + t, u);
  }

  /** The user types with a photo folder of their own. */
  const PhotoUserTypes: set<string> := {"athlete", "coach", "staff", "media"}

  /** `User.get_upload_path` of the `main` app: each known type has a
      folder named after it, every other type (including 'admin') shares
      'default_photos/'. */
  function UploadPath(userType: string): (r: string)
    ensures userType in PhotoUserTypes ==> r == userType + "_photos/"
    ensures userType !in PhotoUserTypes ==> r == "default_photos/"
    ensures r in {"athlete_photos/", "coach_photos/", "staff_photos/", "media_photos/", "default_photos/"}
    ensures |r| > 0 && r[|r| - 1] == '/'
  {
    if userType == "athlete" then "athlete_photos/"
    else if userType == "coach" then "coach_photos/"
    else if userType == "staff" then "staff_photos/"
    else if userType == "media" then "media_photos/"
    else "default_photos/"
  }

  /** `Category.CATEGORY_CHOICES` (identical in both apps): stored value and
      display name. */
  const CategoryChoices: seq<(string, string)> := [
    ("individual_form", "Individual Form"),
    ("team_form", "Team Form"),
    ("sparring", "Sparring"),
    ("team_sparring", "Team Sparring"),
    ("special_technique", "Special Technique"),
    ("team_special_technique", "Team Special Technique")
  ]

  function ChoiceValues(): (r: set<string>)
    ensures forall i :: 0 <= i < |CategoryChoices| ==> CategoryChoices[i].0 in r
    ensures forall c :: c in r ==> exists i :: 0 <= i < |CategoryChoices| && CategoryChoices[i].0 == c
  {
    set i | 0 <= i < |CategoryChoices| :: CategoryChoices[i].0
  }
}

=== FILE: registration.dfy ===
/** Registering athletes for a tournament: the athlete-selection forms that
    decide which athletes are offered, and the two `register_athletes`
    views that create a participation for each selected athlete unless one
    already exists. The participation table is a sequence of rows, so
    duplicates are representable; athletes, coaches, clubs and tournaments
    are identified by number. */
module Registration {
  import opened Wrappers

  type Id = nat

  /** A `TournamentParticipation` row (category and performance are not
      read here). */
  datatype Participation = Participation(tournament: Id, coach: Option<Id>, athlete: Option<Id>)

  /** Which existing rows count as a registration: the `main1` view looks
      for any row of the (tournament, athlete) pair, the client view only
      for rows of the given coach. */
  datatype Scope = AnyCoach | ByCoach(coach: Id)

  predicate Covers(p: Participation, t: Id, scope: Scope, a: Id) {
    p.tournament == t && p.athlete == Some(a) && (scope.ByCoach? ==> p.coach == Some(scope.coach))
  }

  /** The `.filter(...).exists()` test. */
  predicate Has(ps: seq<Participation>, t: Id, scope: Scope, a: Id) {
    exists i :: 0 <= i < |ps| && Covers(ps[i], t, scope, a)
  }

  /** The row the view creates: without a coach in `main1`, with the
      view's coach in the client app. */
  function NewRow(t: Id, scope: Scope, a: Id): (p: Participation)
    ensures Covers(p, t, scope, a)
  {
    Participation(t, if scope.ByCoach? then Some(scope.coach) else None, Some(a))
  }

  /** No two rows register the same athlete within the scope. */
  predicate NoDuplicates(ps: seq<Participation>, t: Id, scope: Scope) {
    forall i, j :: 0 <= i < j < |ps| && ps[i].athlete.Some? && Covers(ps[i], t, scope, ps[i].athlete.value) ==>
      !Covers(ps[j], t, scope, ps[i].athlete.value)
  }

  /** The loop over the selected athletes: a row is appended for each one
      not yet registered, so the existing rows are kept as a prefix. */
  function RegisterAll(ps: seq<Participation>, t: Id, scope: Scope, sel: seq<Id>): (r: seq<Participation>)
    ensures |ps| <= |r| && r[..|ps|] == ps
    decreases |sel|
  {
    if |sel| == 0 then ps
    else
      var a := sel[0];
      var next := Step(ps, t, scope, a);
      var r := RegisterAll(next, t, scope, sel[1..]);
      assert r[..|ps|] == r[..|next|][..|ps|];
      r
  }

  /** The step of the loop for the first selected athlete. */
  function Step(ps: seq<Participation>, t: Id, scope: Scope, a: Id): seq<Participation> {
    if Has(ps, t, scope, a) then ps else ps + [NewRow(t, scope, a)]
  }

  lemma StepSpec(ps: seq<Participation>, t: Id, scope: Scope, a: Id)
    ensures var next := Step(ps, t, scope, a);
      |ps| <= |next| && next[..|ps|] == ps && Has(next, t, scope, a) &&
      (forall b :: b != a ==> (Has(next, t, scope, b) <==> Has(ps, t, scope, b)))
  {
    var next := Step(ps, t, scope, a);
    assert next[..|ps|] == ps;
    HasExtend(ps, next, t, scope);
    if !Has(ps, t, scope, a) {
      assert Covers(next[|ps|], t, scope, a);
      forall b | b != a && Has(next, t, scope, b)
        ensures Has(ps, t, scope, b)
      {
        var i :| 0 <= i < |next| && Covers(next[i], t, scope, b);
        assert i < |ps| && next[i] == ps[i];
      }
    }
  }

  lemma StepUnfold(ps: seq<Participation>, t: Id, scope: Scope, sel: seq<Id>)
    requires |sel| > 0
    ensures RegisterAll(ps, t, scope, sel) == RegisterAll(Step(ps, t, scope, sel[0]), t, scope, sel[1..])
  {
  }

  /** After the loop every selected athlete is registered. */
  lemma {:induction false} RegisterAllCovers(ps: seq<Participation>, t: Id, scope: Scope, sel: seq<Id>)
    ensures forall i :: 0 <= i < |sel| ==> Has(RegisterAll(ps, t, scope, sel), t, scope, sel[i])
    decreases |sel|
  {
    if |sel| > 0 {
      var next := Step(ps, t, scope, sel[0]);
      var r := RegisterAll(next, t, scope, sel[1..]);
      StepUnfold(ps, t, scope, sel);
      StepSpec(ps, t, scope, sel[0]);
      RegisterAllCovers(next, t, scope, sel[1..]);
      HasExtend(next, r, t, scope);
      forall i | 0 <= i < |sel|
        ensures Has(r, t, scope, sel[i])
      {
        if i > 0 {
          assert sel[i] == sel[1..][i - 1];
        }
      }
    }
  }

  /** Registrations of athletes who were not selected are unchanged. */
  lemma {:induction false} RegisterAllOthers(ps: seq<Participation>, t: Id, scope: Scope, sel: seq<Id>)
    ensures forall a :: a !in sel ==> (Has(RegisterAll(ps, t, scope, sel), t, scope, a) <==> Has(ps, t, scope, a))
    decreases |sel|
  {
    if |sel| > 0 {
      var next := Step(ps, t, scope, sel[0]);
      StepUnfold(ps, t, scope, sel);
      StepSpec(ps, t, scope, sel[0]);
      RegisterAllOthers(next, t, scope, sel[1..]);
      forall b | b !in sel
        ensures Has(RegisterAll(ps, t, scope, sel), t, scope, b) <==> Has(ps, t, scope, b)
      {
        assert b !in sel[1..];
      }
    }
  }

  /** Every new row registers a selected athlete who was not registered
      before. */
  lemma {:induction false} RegisterAllNewRows(ps: seq<Participation>, t: Id, scope: Scope, sel: seq<Id>)
    ensures var r := RegisterAll(ps, t, scope, sel);
      forall j :: |ps| <= j < |r| ==>
        r[j].athlete.Some? && r[j] == NewRow(t, scope, r[j].athlete.value) &&
        r[j].athlete.value in sel && !Has(ps, t, scope, r[j].athlete.value)
    decreases |sel|
  {
    if |sel| > 0 {
      var a := sel[0];
      var next := Step(ps, t, scope, a);
      var r := RegisterAll(next, t, scope, sel[1..]);
      StepUnfold(ps, t, scope, sel);
      StepSpec(ps, t, scope, a);
      RegisterAllNewRows(next, t, scope, sel[1..]);
      forall j | |ps| <= j < |r|
        ensures r[j].athlete.Some? && r[j] == NewRow(t, scope, r[j].athlete.value) &&
                r[j].athlete.value in sel && !Has(ps, t, scope, r[j].athlete.value)
      {
        if j >= |next| {
          var b := r[j].athlete.value;
          assert b in sel[1..];
        } else {
          assert r[..|next|] == next;
          assert r[j] == next[j];
          assert j == |ps| && next[j] == NewRow(t, scope, a);
        }
      }
    }
  }

  /** The loop introduces no duplicate registration. */
  lemma {:induction false} RegisterAllKeepsNoDuplicates(ps: seq<Participation>, t: Id, scope: Scope, sel: seq<Id>)
    requires NoDuplicates(ps, t, scope)
    ensures NoDuplicates(RegisterAll(ps, t, scope, sel), t, scope)
    decreases |sel|
  {
    if |sel| > 0 {
      var a := sel[0];
      StepUnfold(ps, t, scope, sel);
      if !Has(ps, t, scope, a) {
        AppendKeepsNoDuplicates(ps, t, scope, a);
      }
      RegisterAllKeepsNoDuplicates(Step(ps, t, scope, a), t, scope, sel[1..]);
    }
  }

  /** The loop's contract as a whole: after it every selected athlete is
      registered; every new row registers a selected athlete who was not
      registered before; registrations of anyone else are unchanged; and no
      duplicate is introduced. */
  lemma RegisterAllSpec(ps: seq<Participation>, t: Id, scope: Scope, sel: seq<Id>)
    ensures var r := RegisterAll(ps, t, scope, sel);
      (forall i :: 0 <= i < |sel| ==> Has(r, t, scope, sel[i])) &&
      (forall j :: |ps| <= j < |r| ==>
        r[j].athlete.Some? && r[j] == NewRow(t, scope, r[j].athlete.value) &&
        r[j].athlete.value in sel && !Has(ps, t, scope, r[j].athlete.value)) &&
      (forall a :: a !in sel ==> (Has(r, t, scope, a) <==> Has(ps, t, scope, a))) &&
      (NoDuplicates(ps, t, scope) ==> NoDuplicates(r, t, scope))
  {
    RegisterAllCovers(ps, t, scope, sel);
    RegisterAllNewRows(ps, t, scope, sel);
    RegisterAllOthers(ps, t, scope, sel);
    if NoDuplicates(ps, t, scope) {
      RegisterAllKeepsNoDuplicates(ps, t, scope, sel);
    }
  }

  lemma HasExtend(ps: seq<Participation>, qs: seq<Participation>, t: Id, scope: Scope)
    requires |ps| <= |qs| && qs[..|ps|] == ps
    ensures forall a :: Has(ps, t, scope, a) ==> Has(qs, t, scope, a)
  {
    forall a | Has(ps, t, scope, a)
      ensures Has(qs, t, scope, a)
    {
      var i :| 0 <= i < |ps| && Covers(ps[i], t, scope, a);
      assert qs[i] == ps[i];
    }
  }

  lemma AppendKeepsNoDuplicates(ps: seq<Participation>, t: Id, scope: Scope, a: Id)
    requires !Has(ps, t, scope, a)
    ensures NoDuplicates(ps, t, scope) ==> NoDuplicates(ps + [NewRow(t, scope, a)], t, scope)
  {
    var qs := ps + [NewRow(t, scope, a)];
    if NoDuplicates(ps, t, scope) {
      forall i, j | 0 <= i < j < |qs| && qs[i].athlete.Some? && Covers(qs[i], t, scope, qs[i].athlete.value)
        ensures !Covers(qs[j], t, scope, qs[i].athlete.value)
      {
        if j == |ps| {
          assert qs[i] == ps[i];
        } else {
          assert qs[i] == ps[i] && qs[j] == ps[j];
        }
      }
    }
  }

  /** When every selected athlete is already registered nothing is added;
      so repeating a registration is the same as doing it once. */
  lemma {:induction false} RegisterAllNoop(ps: seq<Participation>, t: Id, scope: Scope, sel: seq<Id>)
    requires forall i :: 0 <= i < |sel| ==> Has(ps, t, scope, sel[i])
    ensures RegisterAll(ps, t, scope, sel) == ps
    decreases |sel|
  {
    if |sel| > 0 {
      assert Has(ps, t, scope, sel[0]);
      forall i | 0 <= i < |sel[1..]|
        ensures Has(ps, t, scope, sel[1..][i])
      {
        assert sel[1..][i] == sel[i + 1];
      }
      RegisterAllNoop(ps, t, scope, sel[1..]);
    }
  }

  lemma RegisterAllIdempotent(ps: seq<Participation>, t: Id, scope: Scope, sel: seq<Id>)
    ensures RegisterAll(RegisterAll(ps, t, scope, sel), t, scope, sel) == RegisterAll(ps, t, scope, sel)
  {
    RegisterAllSpec(ps, t, scope, sel);
    RegisterAllNoop(RegisterAll(ps, t, scope, sel), t, scope, sel);
  }

  // ---------------------------------------------------------------------
  // Selection forms
  // ---------------------------------------------------------------------

  /** The athletes with a participation in tournament `t`. */
  function Participants(ps: seq<Participation>, t: Id): (r: set<Id>)
    ensures forall a :: a in r <==> Has(ps, t, AnyCoach, a)
  {
    set i | 0 <= i < |ps| && ps[i].tournament == t && ps[i].athlete.Some? :: ps[i].athlete.value
  }

  /** `main1` `AthleteSelectionForm`: nothing without a tournament, otherwise
      every athlete with no participation in it. */
  function OfferedMain(athletes: set<Id>, ps: seq<Participation>, t: Option<Id>): (r: set<Id>)
    ensures t.None? ==> r == {}
    ensures t.Some? ==> forall a :: a in r <==> a in athletes && !Has(ps, t.value, AnyCoach, a)
  {
    if t.None? then {} else athletes - Participants(ps, t.value)
  }

  datatype ConstructionError = KeyError

  /** The client app's `AthleteSelectionForm`: constructing it without a
      tournament fails, and with one it offers the same athletes as the
      `main1` form. `None` stands for a missing `tournament` keyword, which
      `kwargs.pop('tournament')` rejects with `KeyError`; an explicit
      `tournament=None` is not modelled. */
  function OfferedClient(athletes: set<Id>, ps: seq<Participation>, t: Option<Id>): (r: Result<set<Id>, ConstructionError>)
    ensures r.Failure? <==> t.None?
    ensures r.Success? ==> r.value == OfferedMain(athletes, ps, t)
  {
    if t.None? then Failure(KeyError) else Success(athletes - Participants(ps, t.value))
  }

  /** Adding participations can only shrink the offered set. */
  lemma OfferedShrinks(athletes: set<Id>, ps: seq<Participation>, extra: seq<Participation>, t: Id)
    ensures OfferedMain(athletes, ps + extra, Some(t)) <= OfferedMain(athletes, ps, Some(t))
  {
    HasExtend(ps, ps + extra, t, AnyCoach);
  }

  /** An athlete whose participations are all in other tournaments is still
      offered. */
  lemma OtherTournamentsStayOffered(athletes: set<Id>, ps: seq<Participation>, t: Id, a: Id)
    requires a in athletes
    requires forall i :: 0 <= i < |ps| && ps[i].athlete == Some(a) ==> ps[i].tournament != t
    ensures a in OfferedMain(athletes, ps, Some(t))
  {
  }

  /** A multiple-choice field with `required=True` accepts a non-empty
      selection of offered athletes. */
  predicate ValidSelection(sel: seq<Id>, offered: set<Id>) {
    |sel| > 0 && forall i :: 0 <= i < |sel| ==> sel[i] in offered
  }

  /** `main1` `register_athletes` on a POST: an invalid form changes
      nothing; a valid one registers each selected athlete once for the
      tournament, without a coach. */
  function RegisterAthletes(ps: seq<Participation>, athletes: set<Id>, t: Id, sel: seq<Id>): (r: seq<Participation>)
    ensures !ValidSelection(sel, OfferedMain(athletes, ps, Some(t))) ==> r == ps
    ensures ValidSelection(sel, OfferedMain(athletes, ps, Some(t))) ==>
      |ps| <= |r| && r[..|ps|] == ps &&
      forall i :: 0 <= i < |sel| ==> Has(r, t, AnyCoach, sel[i])
  {
    if ValidSelection(sel, OfferedMain(athletes, ps, Some(t))) then
      var r := RegisterAll(ps, t, AnyCoach, sel);
      RegisterAllCovers(ps, t, AnyCoach, sel);
      assert r == ps + r[|ps|..];
      r
    else ps
  }

  /** The client `register_athletes` on a POST: an invalid form changes
      nothing; a valid one registers each selected athlete once for the
      tournament under the view's coach. Since the form only offers
      athletes without any participation in the tournament, every
      selected athlete gets a new row. */
  function RegisterAthletesForCoach(ps: seq<Participation>, athletes: set<Id>, t: Id, coach: Id, sel: seq<Id>)
    : (r: seq<Participation>)
    ensures !ValidSelection(sel, OfferedClient(athletes, ps, Some(t)).value) ==> r == ps
    ensures ValidSelection(sel, OfferedClient(athletes, ps, Some(t)).value) ==>
      |ps| <= |r| && r[..|ps|] == ps &&
      forall i :: 0 <= i < |sel| ==>
        Has(r, t, ByCoach(coach), sel[i]) && !Has(ps, t, ByCoach(coach), sel[i]) &&
        NewRow(t, ByCoach(coach), sel[i]) in r[|ps|..]
  {
    var offered := OfferedClient(athletes, ps, Some(t)).value;
    if ValidSelection(sel, offered) then
      NewAthletesGetNewRows(ps, t, coach, sel);
      RegisterAll(ps, t, ByCoach(coach), sel)
    else ps
  }

  /** Athletes with no participation at all in the tournament each get a
      new row under the coach. */
  lemma NewAthletesGetNewRows(ps: seq<Participation>, t: Id, coach: Id, sel: seq<Id>)
    requires forall i :: 0 <= i < |sel| ==> !Has(ps, t, AnyCoach, sel[i])
    ensures var r := RegisterAll(ps, t, ByCoach(coach), sel);
      forall i :: 0 <= i < |sel| ==>
        Has(r, t, ByCoach(coach), sel[i]) && !Has(ps, t, ByCoach(coach), sel[i]) &&
        NewRow(t, ByCoach(coach), sel[i]) in r[|ps|..]
  {
    var r := RegisterAll(ps, t, ByCoach(coach), sel);
    RegisterAllSpec(ps, t, ByCoach(coach), sel);
    forall i | 0 <= i < |sel|
      ensures !Has(ps, t, ByCoach(coach), sel[i]) && NewRow(t, ByCoach(coach), sel[i]) in r[|ps|..]
    {
      var a := sel[i];
      assert !Has(ps, t, AnyCoach, a);
      assert !Has(ps, t, ByCoach(coach), a) by {
        forall j | 0 <= j < |ps|
          ensures !Covers(ps[j], t, ByCoach(coach), a)
        {
          assert !Covers(ps[j], t, AnyCoach, a);
        }
      }
      var j :| 0 <= j < |r| && Covers(r[j], t, ByCoach(coach), a);
      assert forall k :: 0 <= k < |ps| ==> r[k] == ps[k];
      assert r[j] == NewRow(t, ByCoach(coach), a);
      assert r[|ps|..][j - |ps|] == r[j];
    }
  }

  /** Submitting the same selection again changes nothing: the athletes
      registered the first time are no longer offered, so the second form
      is invalid. */
  lemma RegisterAthletesTwice(ps: seq<Participation>, athletes: set<Id>, t: Id, sel: seq<Id>)
    ensures var once := RegisterAthletes(ps, athletes, t, sel);
      RegisterAthletes(once, athletes, t, sel) == once
  {
    var once := RegisterAthletes(ps, athletes, t, sel);
    if ValidSelection(sel, OfferedMain(athletes, ps, Some(t))) {
      assert Has(once, t, AnyCoach, sel[0]);
      assert sel[0] !in OfferedMain(athletes, once, Some(t));
    }
  }

  lemma ByCoachIsAny(ps: seq<Participation>, t: Id, coach: Id, a: Id)
    ensures Has(ps, t, ByCoach(coach), a) ==> Has(ps, t, AnyCoach, a)
  {
    if Has(ps, t, ByCoach(coach), a) {
      var j :| 0 <= j < |ps| && Covers(ps[j], t, ByCoach(coach), a);
      assert Covers(ps[j], t, AnyCoach, a);
    }
  }

  /** The same for the client view. */
  lemma RegisterAthletesForCoachTwice(ps: seq<Participation>, athletes: set<Id>, t: Id, coach: Id, sel: seq<Id>)
    ensures var once := RegisterAthletesForCoach(ps, athletes, t, coach, sel);
      RegisterAthletesForCoach(once, athletes, t, coach, sel) == once
  {
    var once := RegisterAthletesForCoach(ps, athletes, t, coach, sel);
    if ValidSelection(sel, OfferedClient(athletes, ps, Some(t)).value) {
      ByCoachIsAny(once, t, coach, sel[0]);
      assert sel[0] !in OfferedClient(athletes, once, Some(t)).value;
    }
  }

  // ---------------------------------------------------------------------
  // AthleteSelectionFormCoach
  // ---------------------------------------------------------------------

  datatype AthleteInfo = AthleteInfo(region: Option<Id>, coach: Option<Id>)

  datatype CoachRef = CoachRef(id: Id, region: Option<Id>)

  /** `AthleteSelectionFormCoach`: no coach offers nothing; a coach with a
      club offers the club's athletes; a coach without one offers the
      athletes assigned to that coach. The tournament argument is accepted
      and not used. */
  function CoachOffered(athletes: map<Id, AthleteInfo>, coach: Option<CoachRef>, tournament: Option<Id>): (r: set<Id>)
    ensures coach.None? ==> r == {}
    ensures coach.Some? && coach.value.region.Some? ==>
      forall a :: a in r <==> a in athletes && athletes[a].region == coach.value.region
    ensures coach.Some? && coach.value.region.None? ==>
      forall a :: a in r <==> a in athletes && athletes[a].coach == Some(coach.value.id)
    ensures r <= athletes.Keys
  {
    match coach
    case None => {}
    case Some(c) =>
      if c.region.Some? then set a | a in athletes && athletes[a].region == c.region
      else set a | a in athletes && athletes[a].coach == Some(c.id)
  }

  /** Unlike the `main1` form, the coach's form ignores the tournament: an
      athlete it offers is offered for every tournament, or none, and stays
      offered after registering, although the `main1` form then withdraws
      it. */
  lemma CoachOfferedIgnoresTournament(athletes: map<Id, AthleteInfo>, coach: Option<CoachRef>,
                                      ps: seq<Participation>, t: Id, a: Id)
    requires a in CoachOffered(athletes, coach, Some(t))
    ensures forall u :: a in CoachOffered(athletes, coach, u)
    ensures a in Participants(ps, t) ==> a !in OfferedMain(athletes.Keys, ps, Some(t))
  {
  }

  /** A coach with a club is offered the club's athletes and no one else,
      not even an athlete assigned to that coach who sits in another club. */
  lemma CoachOfferedClubFirst(athletes: map<Id, AthleteInfo>, c: CoachRef, t: Option<Id>, a: Id)
    requires c.region.Some? && a in athletes
    ensures a in CoachOffered(athletes, Some(c), t) <==> athletes[a].region == c.region
  {
  }
}

=== FILE: roster.dfy ===
/** The athlete list of the `main1` app (`AthleteListView.get_queryset`):
    one row per athlete, then one per coach who also competes, each with
    its age and weight division evaluated when the list is built. */
module Roster {
  import opened Wrappers
  import opened Dates
  import opened WeightDivision

  /** A `main1` profile as the list reads it. Region, accommodation and belt
      are optional foreign keys, given here by their names. */
  datatype Person = Person(
    pk: nat, name: string, region: Option<string>, accommodation: Option<string>,
    belt: Option<string>, gender: string, dob: Date, weight: Option<int>,
    categories: seq<string>)

  datatype CoachProfile = CoachProfile(person: Person, isAthlete: bool)

  /** One entry of `athletes_list`. */
  datatype ListRow = ListRow(
    pk: nat, name: string, region: string, accommodation: string, belt: string,
    gender: string, dob: Date, weight: Option<int>, categories: seq<string>,
    age: int, division: string)

  /** `x.name if x else 'N/A'`. */
  function NameOrNA(o: Option<string>): string {
    o.GetOr("N/A")
  }

  /** The dictionary built for one profile. Reading the `get_weight_category`
      property raises for a missing weight in a weighed bracket, and then the
      whole list fails. */
  function RowOf(p: Person, today: Date): (r: Result<ListRow, ComparisonError>)
    ensures r.Failure? <==> ProfileCategory(Profile(p.gender, p.dob, p.weight), today).Failure?
    ensures r.Success? ==>
      && r.value.pk == p.pk && r.value.name == p.name
      && (p.region.None? ==> r.value.region == "N/A")
      && (p.region.Some? ==> r.value.region == p.region.value)
      && (p.accommodation.None? ==> r.value.accommodation == "N/A")
      && (p.accommodation.Some? ==> r.value.accommodation == p.accommodation.value)
      && (p.belt.None? ==> r.value.belt == "N/A")
      && (p.belt.Some? ==> r.value.belt == p.belt.value)
      && r.value.weight == p.weight && r.value.categories == p.categories
      && r.value.gender == p.gender && r.value.dob == p.dob
      && r.value.age == Age(p.dob, today)
      && r.value.division == ProfileCategory(Profile(p.gender, p.dob, p.weight), today).value
      && r.value.division in Labels
  {
    match ProfileCategory(Profile(p.gender, p.dob, p.weight), today)
    case Failure(e) => Failure(e)
    case Success(division) =>
      Success(ListRow(p.pk, p.name, NameOrNA(p.region), NameOrNA(p.accommodation),
                      NameOrNA(p.belt), p.gender, p.dob, p.weight, p.categories,
                      Age(p.dob, today), division))
  }

  /** The rows of a sequence of profiles, in order; the first failing
      profile fails the whole sequence. */
  function RowsOf(ps: seq<Person>, today: Date): (r: Result<seq<ListRow>, ComparisonError>)
    ensures r.Failure? <==> exists i :: 0 <= i < |ps| && RowOf(ps[i], today).Failure?
    ensures r.Success? ==> |r.value| == |ps|
    ensures r.Success? ==> forall i :: 0 <= i < |ps| ==> RowOf(ps[i], today) == Success(r.value[i])
  {
    if |ps| == 0 then Success([])
    else
      match RowOf(ps[0], today)
      case Failure(e) => Failure(e)
      case Success(row) =>
        match RowsOf(ps[1..], today)
        case Failure(e) => Failure(e)
        case Success(rows) => Success([row] + rows)
  }

  /** `Coach.objects.filter(is_athlete=True)`, in store order. */
  function CompetingCoaches(coaches: seq<CoachProfile>): (r: seq<Person>)
    ensures |r| <= |coaches|
    ensures forall p :: p in r <==> exists c :: c in coaches && c.isAthlete && c.person == p
  {
    if |coaches| == 0 then []
    else
      var rest := CompetingCoaches(coaches[1..]);
      assert forall c :: c in coaches[1..] ==> c in coaches;
      if coaches[0].isAthlete then [coaches[0].person] + rest else rest
  }

  /** Rows of a concatenation are the concatenated rows. */
  lemma {:induction false} RowsOfAppend(a: seq<Person>, b: seq<Person>, today: Date)
    ensures RowsOf(a + b, today).Success? <==> RowsOf(a, today).Success? && RowsOf(b, today).Success?
    ensures RowsOf(a + b, today).Success? ==>
      RowsOf(a + b, today).value == RowsOf(a, today).value + RowsOf(b, today).value
  {
    if |a| > 0 {
      assert (a + b)[1..] == a[1..] + b;
      assert (a + b)[0] == a[0];
      RowsOfAppend(a[1..], b, today);
    } else {
      assert a + b == b;
    }
  }

  /** `AthleteListView.get_queryset`: all athletes' rows, then the rows of
      the coaches who also compete. */
  function AthleteList(athletes: seq<Person>, coaches: seq<CoachProfile>, today: Date): (r: Result<seq<ListRow>, ComparisonError>)
    ensures r.Success? <==> RowsOf(athletes, today).Success? && RowsOf(CompetingCoaches(coaches), today).Success?
    ensures r.Success? ==>
      && |r.value| == |athletes| + |CompetingCoaches(coaches)|
      && r.value[..|athletes|] == RowsOf(athletes, today).value
      && r.value[|athletes|..] == RowsOf(CompetingCoaches(coaches), today).value
  {
    RowsOfAppend(athletes, CompetingCoaches(coaches), today);
    RowsOf(athletes + CompetingCoaches(coaches), today)
  }

  /** A list without failures has a row for every athlete and for every
      coach who also competes. */
  lemma EveryoneListed(athletes: seq<Person>, coaches: seq<CoachProfile>, today: Date, p: Person)
    requires AthleteList(athletes, coaches, today).Success?
    requires p in athletes || exists c :: c in coaches && c.isAthlete && c.person == p
    ensures RowOf(p, today).Success? && RowOf(p, today).value in AthleteList(athletes, coaches, today).value
  {
    var all := athletes + CompetingCoaches(coaches);
    assert p in all;
    var k :| 0 <= k < |all| && all[k] == p;
    assert RowOf(all[k], today) == Success(RowsOf(all, today).value[k]);
  }
}

=== FILE: text.dfy ===
/** Python string operations the modelled code relies on, with Python's own
    semantics: `sep in s`, `s.split(sep)`, `sep.join(parts)`,
    `s.replace(old, new)`, ASCII `lower()` and decimal rendering of integers. */
module Text {

  /** Python's `k in s`: `k` occurs as a contiguous piece of `s`.
      The empty string occurs in every string. */
  predicate Contains(s: string, k: string)
    decreases |s|
  {
    |k| <= |s| && (s[..|k|] == k || Contains(s[1..], k))
  }

  /** Python's `s.split(sep)` for a non-empty separator: the pieces between
      the leftmost non-overlapping occurrences of `sep`. */
  function Split(s: string, sep: string): (parts: seq<string>)
    requires |sep| > 0
    ensures |parts| >= 1
    decreases |s|
  {
    if |s| < |sep| then [s]
    else if s[..|sep|] == sep then [""] + Split(s[|sep|..], sep)
    else
      var rest := Split(s[1..], sep);
      [[s[0]] + rest[0]] + rest[1..]
  }

  /** Python's `sep.join(parts)`. */
  function Join(sep: string, parts: seq<string>): string
    decreases |parts|
  {
    if |parts| == 0 then ""
    else if |parts| == 1 then parts[0]
    else parts[0] + sep + Join(sep, parts[1..])
  }

  /** Python's `s.replace(pat, repl)`: every leftmost non-overlapping
      occurrence of `pat` is replaced by `repl`; an empty `pat` inserts `repl` before
      every character and once at the end. */
  function Replace(s: string, pat: string, repl: string): string
    decreases |s|
  {
    if |pat| == 0 then
      (if |s| == 0 then repl else repl + [s[0]] + Replace(s[1..], pat, repl))
    else if |s| < |pat| then s
    else if s[..|pat|] == pat then repl + Replace(s[|pat|..], pat, repl)
    else [s[0]] + Replace(s[1..], pat, repl)
  }

  /** Python's `s.lower()` restricted to ASCII letters. */
  function LowerChar(c: char): char {
    if 'A' <= c <= 'Z' then (c as int + 32) as char else c
  }

  function Lower(s: string): (r: string)
    ensures |r| == |s|
    ensures forall i :: 0 <= i < |s| ==> r[i] == LowerChar(s[i])
  {
    seq(|s|, i requires 0 <= i < |s| => LowerChar(s[i]))
  }

  /** Lower-casing leaves no upper-case ASCII letter, changes nothing
      else, and is idempotent. */
  lemma LowerSpec(s: string)
    ensures forall i :: 0 <= i < |s| ==> !('A' <= Lower(s)[i] <= 'Z')
    ensures forall i :: 0 <= i < |s| && !('A' <= s[i] <= 'Z') ==> Lower(s)[i] == s[i]
    ensures Lower(Lower(s)) == Lower(s)
  {
  }

  function DigitChar(d: nat): char
    requires d < 10
  {
    ('0' as int + d) as char
  }

  predicate IsDigit(c: char) {
    '0' <= c <= '9'
  }

  function DigitValue(c: char): nat
    requires IsDigit(c)
  {
    c as int - '0' as int
  }

  /** Python's `str(n)` for a natural number: decimal digits, no padding. */
  function NatToString(n: nat): (r: string)
    ensures |r| >= 1
    ensures |r| == 1 <==> n < 10
    ensures forall i :: 0 <= i < |r| ==> IsDigit(r[i])
  {
    if n < 10 then [DigitChar(n)]
    else NatToString(n / 10) + [DigitChar(n % 10)]
  }

  /** Python's `str(n)` for any integer. */
  function IntToString(n: int): string {
    if n < 0 then "-" + NatToString(-n) else NatToString(n)
  }

  /** `'%02d' % n`: at least two digits, zero padded on the left. */
  function Pad2(n: nat): (r: string)
    ensures n < 100 ==> |r| == 2
    ensures forall i :: 0 <= i < |r| ==> IsDigit(r[i])
  {
    if n < 10 then "0" + NatToString(n) else NatToString(n)
  }

  /** Reads a string of decimal digits back as a number. */
  function ParseNat(s: string): nat
    requires forall i :: 0 <= i < |s| ==> IsDigit(s[i])
  {
    if |s| == 0 then 0
    else ParseNat(s[..|s| - 1]) * 10 + DigitValue(s[|s| - 1])
  }

  // ---------------------------------------------------------------------
  // Round trips and characterisations
  // ---------------------------------------------------------------------

  /** Rendering a number and reading it back gives the number. */
  lemma {:induction false} ParseNatToString(n: nat)
    ensures ParseNat(NatToString(n)) == n
  {
    if n >= 10 {
      var r := NatToString(n);
      assert r[..|r| - 1] == NatToString(n / 10);
      ParseNatToString(n / 10);
    }
  }

  /** Zero padding does not change the value read back. */
  lemma ParsePad2(n: nat)
    ensures ParseNat(Pad2(n)) == n
  {
    ParseNatToString(n);
    if n < 10 {
      var r := Pad2(n);
      assert r[..1] == "0";
      assert ParseNat(r[..1]) == 0;
    }
  }

  lemma JoinHeadChar(c: char, p: string, sep: string, ps: seq<string>)
    ensures Join(sep, [[c] + p] + ps) == [c] + Join(sep, [p] + ps)
  {
    if |ps| > 0 {
      assert ([[c] + p] + ps)[1..] == ps;
      assert ([p] + ps)[1..] == ps;
    }
  }

  /** Joining the pieces of a split with the same separator restores the
      original string: `sep.join(s.split(sep)) == s`. */
  lemma {:induction false} JoinSplit(s: string, sep: string)
    requires |sep| > 0
    ensures Join(sep, Split(s, sep)) == s
    decreases |s|
  {
    if |s| < |sep| {
    } else if s[..|sep|] == sep {
      JoinSplit(s[|sep|..], sep);
      JoinEmptyHead(sep, Split(s[|sep|..], sep));
      assert s == sep + s[|sep|..];
    } else {
      var rest := Split(s[1..], sep);
      JoinSplit(s[1..], sep);
      JoinHeadChar(s[0], rest[0], sep, rest[1..]);
      assert [rest[0]] + rest[1..] == rest;
      assert s == [s[0]] + s[1..];
    }
  }

  lemma JoinEmptyHead(sep: string, rest: seq<string>)
    requires |rest| >= 1
    ensures Join(sep, [""] + rest) == sep + Join(sep, rest)
  {
    assert ([""] + rest)[1..] == rest;
  }

  /** `s.replace(pat, repl)` is `repl.join(s.split(pat))` for a non-empty `pat`. */
  lemma {:induction false} ReplaceIsJoinOfSplit(s: string, pat: string, repl: string)
    requires |pat| > 0
    ensures Replace(s, pat, repl) == Join(repl, Split(s, pat))
    decreases |s|
  {
    if |s| < |pat| {
    } else if s[..|pat|] == pat {
      var rest := Split(s[|pat|..], pat);
      ReplaceIsJoinOfSplit(s[|pat|..], pat, repl);
      assert ([""] + rest)[1..] == rest;
    } else {
      var rest := Split(s[1..], pat);
      ReplaceIsJoinOfSplit(s[1..], pat, repl);
      JoinHeadChar(s[0], rest[0], repl, rest[1..]);
      assert [rest[0]] + rest[1..] == rest;
    }
  }

  /** Replacing a piece that does not occur leaves the string unchanged. */
  lemma {:induction false} ReplaceAbsent(s: string, pat: string, repl: string)
    requires !Contains(s, pat)
    ensures Replace(s, pat, repl) == s
    decreases |s|
  {
    if |s| >= |pat| {
      ReplaceAbsent(s[1..], pat, repl);
      assert s == [s[0]] + s[1..];
    }
  }

  /** For a one-character piece, `Contains` is plain membership. */
  lemma {:induction false} ContainsChar(s: string, c: char)
    ensures Contains(s, [c]) <==> c in s
    decreases |s|
  {
    if |s| >= 1 {
      ContainsChar(s[1..], c);
      assert s == [s[0]] + s[1..];
    }
  }

  /** Splitting on a character that does not occur yields the whole string. */
  lemma {:induction false} SplitAbsentChar(s: string, c: char)
    requires c !in s
    ensures Split(s, [c]) == [s]
    decreases |s|
  {
    if |s| >= 1 {
      assert s[..1] == [s[0]];
      SplitAbsentChar(s[1..], c);
      assert s == [s[0]] + s[1..];
    }
  }

  /** Splitting on a character that occurs yields at least two pieces. */
  lemma {:induction false} SplitPresentChar(s: string, c: char)
    requires c in s
    ensures |Split(s, [c])| >= 2
    decreases |s|
  {
    assert |s| >= 1;
    if s[..1] != [c] {
      assert s[0] != c;
      assert s == [s[0]] + s[1..];
      SplitPresentChar(s[1..], c);
    }
  }

  /** No piece of a split on a character contains that character. */
  lemma {:induction false} SplitCharPiecesFree(s: string, c: char)
    ensures forall i :: 0 <= i < |Split(s, [c])| ==> c !in Split(s, [c])[i]
    decreases |s|
  {
    if |s| >= 1 {
      SplitCharPiecesFree(s[1..], c);
      if s[..1] != [c] {
        assert s[0] != c;
      }
    }
  }

  /** Replacing one character by another acts character by character. */
  lemma {:induction false} ReplaceChar(s: string, a: char, b: char)
    ensures |Replace(s, [a], [b])| == |s|
    ensures forall i :: 0 <= i < |s| ==>
      Replace(s, [a], [b])[i] == (if s[i] == a then b else s[i])
    decreases |s|
  {
    if |s| >= 1 {
      ReplaceChar(s[1..], a, b);
      assert s[..1] == [s[0]];
    }
  }

  /** Joining one more piece appends the separator and the piece. */
  lemma {:induction false} JoinSnoc(sep: string, parts: seq<string>, last: string)
    requires |parts| >= 1
    ensures Join(sep, parts + [last]) == Join(sep, parts) + sep + last
    decreases |parts|
  {
    if |parts| > 1 {
      JoinSnoc(sep, parts[1..], last);
      assert (parts + [last])[1..] == parts[1..] + [last];
    } else {
      assert (parts + [last])[1..] == [last];
    }
  }
}

=== FILE: weight_division.dfy ===
/** The weight-division classifier of `BaseProfile.get_weight_category`
    (and its verbatim copy `Athlete.get_weight_category` in the older `main`
    app): an ordered, first-match decision table over gender, age and weight
    whose gaps fall through to 'Unknown Category'.

    Weights are two-decimal `DecimalField` values, modelled as whole
    hundredths of a kilogram: 54.9 kg is 5490. The source compares these
    decimals exactly with binary floating-point literals, and the doubles
    nearest 50.9, 54.9 and 59.9 lie just below those values while the ones
    nearest 64.9 to 89.9 lie just above. So a weight of exactly 54.90 kg is
    not `<= 54.9` and 59.90 kg is not `<= 59.9`, which the integer bounds
    5489 and 5989 below express; `ClassifyMatchesFloat` proves them against
    the exact double values. */
module WeightDivision {
  import opened Text
  import opened Wrappers
  import opened Dates

  const Fin := "Fin Weight Division"
  const Fly := "Fly Weight Division"
  const Bantam := "Bantam Weight Division"
  const Feather := "Feather Weight Division"
  const Light := "Light Weight Division"
  const Welter := "Welter Weight Division"
  const Middle := "Middle Weight Division"
  const Heavy := "Heavy Weight Division"
  const SuperHeavy := "Super Heavy Weight Division"
  const SuperHeavyLevel1 := "Super Heavy Weight Division Level 1"
  const SuperHeavyLevel0 := "Super Heavy Weight Division Level 0"
  const Unknown := "Unknown Category"

  /** Every label the classifier can produce. */
  const Labels: set<string> := {Fin, Fly, Bantam, Feather, Light, Welter, Middle, Heavy,
                                SuperHeavy, SuperHeavyLevel1, SuperHeavyLevel0, Unknown}

  /** `gender.lower() == 'male'`. */
  predicate IsMale(gender: string) {
    Lower(gender) == "male"
  }

  /** `gender.lower() == 'female'`. */
  predicate IsFemale(gender: string) {
    Lower(gender) == "female"
  }

  /** The decision table as the source writes it: nested conditionals whose
      first matching branch wins, with every unmatched case falling through
      to 'Unknown Category'. */
  function Classify(gender: string, age: int, w: int): (r: string)
    ensures r in Labels
  {
    if IsMale(gender) then
      if 18 <= age <= 35 then
        if w <= 5489 then Fin
        else if 5500 <= w <= 5989 then Fly
        else if 6000 <= w <= 6490 then Bantam
        else if 6500 <= w <= 6990 then Feather
        else if 7000 <= w <= 7490 then Light
        else if 7500 <= w <= 7990 then Welter
        else if 8000 <= w <= 8490 then Middle
        else if 8500 <= w <= 8990 then Heavy
        else if 9000 <= w <= 10000 then SuperHeavy
        else if w > 10000 then SuperHeavyLevel1
        else Unknown
      else if 36 <= age <= 49 then
        if 5090 <= w <= 5989 then Fly
        else if 6000 <= w <= 6990 then Middle
        else if 7000 <= w <= 7990 then Heavy
        else if 8000 <= w <= 8990 then SuperHeavy
        else if w >= 9000 then SuperHeavyLevel0
        else Unknown
      else Unknown
    else if IsFemale(gender) then
      if 18 <= age <= 49 then
        if 5090 <= w <= 5989 then Fly
        else if 6000 <= w <= 6990 then Middle
        else if 7000 <= w <= 7990 then Heavy
        else if 8000 <= w <= 8990 then SuperHeavy
        else if w >= 9000 then SuperHeavyLevel0
        else Unknown
      else Unknown
    else Unknown
  }

  /** The error Python raises when a missing weight (`None`) is compared
      with a number. */
  datatype ComparisonError = TypeError

  /** The (gender, age) brackets in which the source compares the weight. */
  predicate WeighedBracket(gender: string, age: int) {
    (IsMale(gender) && 18 <= age <= 49) || (IsFemale(gender) && 18 <= age <= 49)
  }

  /** The property on a profile whose weight may be missing: a missing weight
      raises as soon as a bracket compares it, and is never looked at
      otherwise. */
  function WeightCategory(gender: string, age: int, weight: Option<int>): (r: Result<string, ComparisonError>)
    ensures r.Failure? <==> weight.None? && WeighedBracket(gender, age)
    ensures weight.None? && !WeighedBracket(gender, age) ==> r == Success(Unknown)
    ensures r.Success? ==> r.value in Labels
  {
    match weight
    case Some(w) => Success(Classify(gender, age, w))
    case None =>
      if IsMale(gender) then
        if 18 <= age <= 35 || 36 <= age <= 49 then Failure(TypeError) else Success(Unknown)
      else if IsFemale(gender) then
        if 18 <= age <= 49 then Failure(TypeError) else Success(Unknown)
      else Success(Unknown)
  }

  /** A profile as far as the classifier reads it: the `main1` profiles
      (`Athlete`, `Coach`) and the `main` app's `Athlete` alike. */
  datatype Profile = Profile(gender: string, dob: Date, weight: Option<int>)

  /** `profile.get_weight_category` evaluated on `today`. */
  function ProfileCategory(p: Profile, today: Date): Result<string, ComparisonError> {
    WeightCategory(p.gender, Age(p.dob, today), p.weight)
  }

  // ---------------------------------------------------------------------
  // An independent reference: the bands as an explicit ordered rule table
  // ---------------------------------------------------------------------

  /** A weight band with inclusive bounds; `None` leaves that side open. */
  datatype Band = Band(lo: Option<int>, hi: Option<int>, division: string)

  predicate InBand(b: Band, w: int) {
    (b.lo.None? || b.lo.value <= w) && (b.hi.None? || w <= b.hi.value)
  }

  /** The label of the first band from position `i` on containing `w`, or
      'Unknown Category' when none does. */
  function FirstMatchFrom(table: seq<Band>, i: nat, w: int): string
    decreases |table| - i
  {
    if i >= |table| then Unknown
    else if InBand(table[i], w) then table[i].division
    else FirstMatchFrom(table, i + 1, w)
  }

  function FirstMatch(table: seq<Band>, w: int): string {
    FirstMatchFrom(table, 0, w)
  }

  /** Men aged 18 to 35. */
  const YoungMaleTable: seq<Band> := [
    Band(None, Some(5489), Fin),
    Band(Some(5500), Some(5989), Fly),
    Band(Some(6000), Some(6490), Bantam),
    Band(Some(6500), Some(6990), Feather),
    Band(Some(7000), Some(7490), Light),
    Band(Some(7500), Some(7990), Welter),
    Band(Some(8000), Some(8490), Middle),
    Band(Some(8500), Some(8990), Heavy),
    Band(Some(9000), Some(10000), SuperHeavy),
    Band(Some(10001), None, SuperHeavyLevel1)
  ]

  /** Men aged 36 to 49 and women aged 18 to 49. */
  const FiveBandTable: seq<Band> := [
    Band(Some(5090), Some(5989), Fly),
    Band(Some(6000), Some(6990), Middle),
    Band(Some(7000), Some(7990), Heavy),
    Band(Some(8000), Some(8990), SuperHeavy),
    Band(Some(9000), None, SuperHeavyLevel0)
  ]

  /** Which table applies to a (gender, age) pair, if any. */
  function Bracket(gender: string, age: int): Option<seq<Band>> {
    if IsMale(gender) && 18 <= age <= 35 then Some(YoungMaleTable)
    else if IsMale(gender) && 36 <= age <= 49 then Some(FiveBandTable)
    else if IsFemale(gender) && 18 <= age <= 49 then Some(FiveBandTable)
    else None
  }

  function ClassifyByTable(gender: string, age: int, w: int): string {
    match Bracket(gender, age)
    case None => Unknown
    case Some(table) => FirstMatch(table, w)
  }

  lemma FiveBandMatches(w: int)
    ensures FirstMatch(FiveBandTable, w) ==
      if 5090 <= w <= 5989 then Fly
      else if 6000 <= w <= 6990 then Middle
      else if 7000 <= w <= 7990 then Heavy
      else if 8000 <= w <= 8990 then SuperHeavy
      else if w >= 9000 then SuperHeavyLevel0
      else Unknown
  {
    var t := FiveBandTable;
    assert FirstMatchFrom(t, 5, w) == Unknown;
    assert FirstMatchFrom(t, 4, w) == if w >= 9000 then SuperHeavyLevel0 else Unknown;
    assert FirstMatchFrom(t, 3, w) == if 8000 <= w <= 8990 then SuperHeavy else FirstMatchFrom(t, 4, w);
    assert FirstMatchFrom(t, 2, w) == if 7000 <= w <= 7990 then Heavy else FirstMatchFrom(t, 3, w);
    assert FirstMatchFrom(t, 1, w) == if 6000 <= w <= 6990 then Middle else FirstMatchFrom(t, 2, w);
  }

  lemma YoungMaleMatches(w: int)
    ensures FirstMatch(YoungMaleTable, w) ==
      if w <= 5489 then Fin
      else if 5500 <= w <= 5989 then Fly
      else if 6000 <= w <= 6490 then Bantam
      else if 6500 <= w <= 6990 then Feather
      else if 7000 <= w <= 7490 then Light
      else if 7500 <= w <= 7990 then Welter
      else if 8000 <= w <= 8490 then Middle
      else if 8500 <= w <= 8990 then Heavy
      else if 9000 <= w <= 10000 then SuperHeavy
      else if w > 10000 then SuperHeavyLevel1
      else Unknown
  {
    var t := YoungMaleTable;
    assert FirstMatchFrom(t, 10, w) == Unknown;
    assert FirstMatchFrom(t, 9, w) == if w > 10000 then SuperHeavyLevel1 else Unknown;
    assert FirstMatchFrom(t, 8, w) == if 9000 <= w <= 10000 then SuperHeavy else FirstMatchFrom(t, 9, w);
    assert FirstMatchFrom(t, 7, w) == if 8500 <= w <= 8990 then Heavy else FirstMatchFrom(t, 8, w);
    assert FirstMatchFrom(t, 6, w) == if 8000 <= w <= 8490 then Middle else FirstMatchFrom(t, 7, w);
    assert FirstMatchFrom(t, 5, w) == if 7500 <= w <= 7990 then Welter else FirstMatchFrom(t, 6, w);
    assert FirstMatchFrom(t, 4, w) == if 7000 <= w <= 7490 then Light else FirstMatchFrom(t, 5, w);
    assert FirstMatchFrom(t, 3, w) == if 6500 <= w <= 6990 then Feather else FirstMatchFrom(t, 4, w);
    assert FirstMatchFrom(t, 2, w) == if 6000 <= w <= 6490 then Bantam else FirstMatchFrom(t, 3, w);
    assert FirstMatchFrom(t, 1, w) == if 5500 <= w <= 5989 then Fly else FirstMatchFrom(t, 2, w);
  }

  /** The nested conditionals and the rule table agree on every input. */
  lemma ClassifyMatchesTable(gender: string, age: int, w: int)
    ensures Classify(gender, age, w) == ClassifyByTable(gender, age, w)
  {
    FiveBandMatches(w);
    YoungMaleMatches(w);
  }

  /** Bands listed in increasing order, each ending below the next one's start. */
  predicate SortedApart(table: seq<Band>) {
    forall i, j :: 0 <= i < j < |table| ==>
      table[i].hi.Some? && table[j].lo.Some? && table[i].hi.value < table[j].lo.value
  }

  lemma TablesSortedApart()
    ensures SortedApart(YoungMaleTable)
    ensures SortedApart(FiveBandTable)
  {
  }

  /** In a table of separated bands the order of the rules is immaterial:
      the result is the label of whichever band holds the weight. */
  lemma {:induction false} FirstMatchFromBand(table: seq<Band>, i: nat, k: nat, w: int)
    requires SortedApart(table)
    requires i <= k < |table| && InBand(table[k], w)
    ensures FirstMatchFrom(table, i, w) == table[k].division
    decreases k - i
  {
    if i < k {
      assert table[i].hi.value < table[k].lo.value;
      FirstMatchFromBand(table, i + 1, k, w);
    }
  }

  /** A weight inside no band of its bracket is 'Unknown Category'. */
  lemma {:induction false} FirstMatchFromNoBand(table: seq<Band>, i: nat, w: int)
    requires forall k :: i <= k < |table| ==> !InBand(table[k], w)
    ensures FirstMatchFrom(table, i, w) == Unknown
    decreases |table| - i
  {
    if i < |table| {
      FirstMatchFromNoBand(table, i + 1, w);
    }
  }

  /** A gender that lowercases to neither 'male' nor 'female' is never
      classified, and its weight is never compared (a missing one raises
      nothing). */
  lemma UnknownGender(gender: string, age: int, w: int)
    requires !IsMale(gender) && !IsFemale(gender)
    ensures Classify(gender, age, w) == Unknown
    ensures WeightCategory(gender, age, None) == Success(Unknown)
  {
  }

  /** Outside ages 18 to 49 nobody is classified, whatever the weight. */
  lemma AgeOutOfBand(gender: string, age: int, w: int)
    requires age < 18 || age > 49
    ensures Classify(gender, age, w) == Unknown
    ensures WeightCategory(gender, age, None) == Success(Unknown)
  {
  }

  /** Men aged 18 to 35: up to 54.89 kg is Fin, 55 to 59.89 kg is Fly,
      exactly 100 kg is Super Heavy, anything above is Level 1; a weight
      strictly between two bands (54.90 to 54.99, 59.90 to 59.99, and 64.91
      to 64.99, ..., 89.91 to 89.99) is unclassified, and every other weight
      from 60 kg to below 90 kg falls in the band numbered by its 5 kg step. */
  lemma YoungMaleDivisions(gender: string, age: int, w: int)
    requires IsMale(gender) && 18 <= age <= 35
    ensures w <= 5489 ==> Classify(gender, age, w) == Fin
    ensures 5500 <= w <= 5989 ==> Classify(gender, age, w) == Fly
    ensures w == 10000 ==> Classify(gender, age, w) == SuperHeavy
    ensures w > 10000 ==> Classify(gender, age, w) == SuperHeavyLevel1
    ensures 5489 < w < 5500 || 5989 < w < 6000 ==> Classify(gender, age, w) == Unknown
    ensures 6000 <= w < 9000 && w % 500 > 490 ==> Classify(gender, age, w) == Unknown
    ensures 6000 <= w < 9000 && w % 500 <= 490 ==>
      Classify(gender, age, w) == YoungMaleTable[(w - 5000) / 500].division
  {
    if 6000 <= w < 9000 && w % 500 <= 490 {
      YoungMaleInBand(gender, age, w);
    } else if 6000 <= w < 9000 && w % 500 > 490 {
      YoungMaleGap(gender, age, w);
    }
  }

  lemma YoungMaleInBand(gender: string, age: int, w: int)
    requires IsMale(gender) && 18 <= age <= 35
    requires 6000 <= w < 9000 && w % 500 <= 490
    ensures Classify(gender, age, w) == YoungMaleTable[(w - 5000) / 500].division
  {
    TablesSortedApart();
    ClassifyMatchesTable(gender, age, w);
    var k := (w - 5000) / 500;
    assert 2 <= k <= 7;
    assert YoungMaleTable[k].lo == Some(5000 + 500 * k);
    assert YoungMaleTable[k].hi == Some(5490 + 500 * k);
    FirstMatchFromBand(YoungMaleTable, 0, k, w);
  }

  lemma YoungMaleGap(gender: string, age: int, w: int)
    requires IsMale(gender) && 18 <= age <= 35
    requires 6000 <= w < 9000 && w % 500 > 490
    ensures Classify(gender, age, w) == Unknown
  {
    ClassifyMatchesTable(gender, age, w);
    forall k | 0 <= k < |YoungMaleTable|
      ensures !InBand(YoungMaleTable[k], w)
    {
    }
    FirstMatchFromNoBand(YoungMaleTable, 0, w);
  }

  /** The field default weight 0 is Fin for a man aged 18 to 35. */
  lemma DefaultWeightIsFin(gender: string, age: int)
    requires IsMale(gender) && 18 <= age <= 35
    ensures Classify(gender, age, 0) == Fin
  {
  }

  /** Men aged 36 to 49 and women aged 18 to 49 share one five-band table:
      below 50.9 kg nothing, 50.9 to 59.89 kg Fly, 59.90 to 59.99 kg
      nothing, 60 to 69.9 kg Middle, and from 90 kg Level 0. */
  lemma FiveBandShared(male: string, maleAge: int, female: string, femaleAge: int, w: int)
    requires IsMale(male) && 36 <= maleAge <= 49
    requires IsFemale(female) && 18 <= femaleAge <= 49
    ensures Classify(male, maleAge, w) == Classify(female, femaleAge, w)
    ensures w < 5090 ==> Classify(female, femaleAge, w) == Unknown
    ensures 5090 <= w <= 5989 ==> Classify(female, femaleAge, w) == Fly
    ensures 5989 < w < 6000 ==> Classify(female, femaleAge, w) == Unknown
    ensures 6000 <= w <= 6990 ==> Classify(female, femaleAge, w) == Middle
    ensures w >= 9000 ==> Classify(female, femaleAge, w) == SuperHeavyLevel0
  {
  }

  /** Level 1 is reached only by men aged 18 to 35 above 100 kg; Level 0
      only by the five-band brackets from 90 kg. */
  lemma TopDivisions(gender: string, age: int, w: int)
    ensures Classify(gender, age, w) == SuperHeavyLevel1 <==>
      IsMale(gender) && 18 <= age <= 35 && w > 10000
    ensures Classify(gender, age, w) == SuperHeavyLevel0 <==>
      ((IsMale(gender) && 36 <= age <= 49) || (IsFemale(gender) && 18 <= age <= 49)) && w >= 9000
  {
  }

  // ---------------------------------------------------------------------
  // The comparisons as the source performs them: a decimal weight against
  // the binary64 value of each literal, compared exactly
  // ---------------------------------------------------------------------

  /** The binary64 values nearest to the literals 50.9, 54.9, ..., 89.9. */
  const Dbl50_9: real := 50.89999999999999857891452847979962825775146484375
  const Dbl54_9: real := 54.89999999999999857891452847979962825775146484375
  const Dbl59_9: real := 59.89999999999999857891452847979962825775146484375
  const Dbl64_9: real := 64.900000000000005684341886080801486968994140625
  const Dbl69_9: real := 69.900000000000005684341886080801486968994140625
  const Dbl74_9: real := 74.900000000000005684341886080801486968994140625
  const Dbl79_9: real := 79.900000000000005684341886080801486968994140625
  const Dbl84_9: real := 84.900000000000005684341886080801486968994140625
  const Dbl89_9: real := 89.900000000000005684341886080801486968994140625

  /** `get_weight_category` on a weight of `x` kilograms, with each literal
      replaced by the double the interpreter holds for it. */
  function ClassifyFloat(gender: string, age: int, x: real): string {
    if IsMale(gender) then
      if 18 <= age <= 35 then
        if x <= Dbl54_9 then Fin
        else if 55.0 <= x <= Dbl59_9 then Fly
        else if 60.0 <= x <= Dbl64_9 then Bantam
        else if 65.0 <= x <= Dbl69_9 then Feather
        else if 70.0 <= x <= Dbl74_9 then Light
        else if 75.0 <= x <= Dbl79_9 then Welter
        else if 80.0 <= x <= Dbl84_9 then Middle
        else if 85.0 <= x <= Dbl89_9 then Heavy
        else if 90.0 <= x <= 100.0 then SuperHeavy
        else if x > 100.0 then SuperHeavyLevel1
        else Unknown
      else if 36 <= age <= 49 then FiveBandFloat(x)
      else Unknown
    else if IsFemale(gender) then
      if 18 <= age <= 49 then FiveBandFloat(x) else Unknown
    else Unknown
  }

  function FiveBandFloat(x: real): string {
    if Dbl50_9 <= x <= Dbl59_9 then Fly
    else if 60.0 <= x <= Dbl69_9 then Middle
    else if 70.0 <= x <= Dbl79_9 then Heavy
    else if 80.0 <= x <= Dbl89_9 then SuperHeavy
    else if x >= 90.0 then SuperHeavyLevel0
    else Unknown
  }

  /** Each double threshold separates the two-place decimals exactly where
      the integer bound does. */
  lemma FloatThresholds(w: int)
    ensures w as real / 100.0 <= Dbl54_9 <==> w <= 5489
    ensures w as real / 100.0 <= Dbl59_9 <==> w <= 5989
    ensures Dbl50_9 <= w as real / 100.0 <==> 5090 <= w
    ensures w as real / 100.0 <= Dbl64_9 <==> w <= 6490
    ensures w as real / 100.0 <= Dbl69_9 <==> w <= 6990
    ensures w as real / 100.0 <= Dbl74_9 <==> w <= 7490
    ensures w as real / 100.0 <= Dbl79_9 <==> w <= 7990
    ensures w as real / 100.0 <= Dbl84_9 <==> w <= 8490
    ensures w as real / 100.0 <= Dbl89_9 <==> w <= 8990
  {
  }

  /** The integer classifier is the source's float comparison, for every
      two-place weight: in particular 54.90 kg and 59.90 kg fall in a gap. */
  lemma ClassifyMatchesFloat(gender: string, age: int, w: int)
    ensures Classify(gender, age, w) == ClassifyFloat(gender, age, w as real / 100.0)
  {
    FloatThresholds(w);
  }
}

=== FILE: wrappers.dfy ===
/** Optional values and success/failure results, used wherever the modelled
    code has a `None`, a missing key or a raised exception. */
module Wrappers {

  datatype Option<+T> = None | Some(value: T) {

    /** Returns the value held in Some, or `default` for None. */
    function GetOr(default: T): T {
      match this
      case Some(v) => v
      case None => default
    }
  }

  datatype Result<+R, +E> = Success(value: R) | Failure(error: E) {

    /** Returns the value held in Success, or `default` for Failure. */
    function GetOr(default: R): R {
      match this
      case Success(v) => v
      case Failure(_) => default
    }
  }
}
